=== FILE: README.md ===
# UserManagementAPI request pipeline, modelled in Dafny

This project models the request pipeline of the UserManagementAPI service and the in-memory user store behind it. The host installs the stages in a fixed order (`Program.cs:15-17`):

1. `ErrorHandlingMiddleware`: the error boundary.
2. `RequestLoggingMiddleware`: the request logger.
3. `AuthenticationMiddleware`: the authentication gate.
4. The routed `UsersController` action, over the singleton `UserService`.

Each stage is a Dafny module. The modules call each other in that order, so `next` is always the following stage.

| file | module | what it holds |
|---|---|---|
| `wrappers.dfy` | `Wrappers` | `Option` and `Result` |
| `text.dfy` | `Text` | ordinal and ignore-case comparison, `Contains`, `Replace(p, "")` as `RemoveAll`, integer formatting with its decimal reading, JSON string quoting |
| `json.dfy` | `Json` | JSON values and their compact text |
| `models.dfy` | `Models` | the `User` record and instants |
| `http.dfy` | `Http` | requests, replies, exception kinds, the `Stream` class, the `HttpContext` class, the `Logger` class, and the twostate predicate `Produced` |
| `user_service.dfy` | `UserStore` | the store as functions over `seq<User>`, plus the `UserService` class whose methods update its `users` field |
| `users_controller.dfy` | `UsersController` | outcome-to-response mappings, `Perform` (the action's effect and answer), the controller class, and the endpoint `Dispatch` |
| `authentication.dfy` | `Authentication` | the gate's `Decide` function and its `Invoke` method |
| `request_logging.dfy` | `RequestLogging` | the content-type gate, truncation, `ReadRequestBody`, and the sink swap, copy and restore |
| `error_handling.dfy` | `ErrorHandling` | the exception-to-status switch, titles, the error envelope, `HandleException` and `Invoke` |
| `pipeline.dfy` | `Pipeline` | one request through the whole chain, plus end-to-end lemmas |

Each stateful stage is a `method` over the shared `HttpContext`. The method's contract ties the new state to a specification function:
- `EndpointReply` for the endpoint;
- `GateReply` for the gate and everything after it;
- `ChainReply` for the whole chain.

A stage ends with an `Outcome`: it either replied, or raised before writing anything. `Produced(ctx, outcome, thrown)` says what that does to the response:
- a stage that raised leaves the status, content type and sink as they were, and `thrown` is its exception;
- a stage that replied sets the reply's status and content type and overwrites the reply text into the sink at its position;
- that write raises exactly when the reply has text and the sink's connection is gone.

A `Stream` whose `failing` flag is set stands for an aborted connection, and every read or write on it raises an I/O exception. The controller's actions swallow every exception the service throws. Exceptions therefore reach the error boundary from two places only:
- model binding, which runs before the action: `Request.route` may be `BindingFailed(fault)`, for instance when reading a `[FromBody]` request body fails;
- a write to a dead sink.

## Model

| member | source | states |
|---|---|---|
| Text.RemoveAll | Middleware/AuthenticationMiddleware.cs:41 | `Replace("Bearer ", "")` never lengthens the header; it shortens it exactly when the header holds an occurrence, and returns it unchanged otherwise |
| Text.RemoveAllKeepsPrefix | Middleware/AuthenticationMiddleware.cs:41 | a prefix that never holds the scheme's first character passes through unchanged, so occurrences are removed wherever they stand |
| Text.RemoveAllLeadingCopies | Middleware/AuthenticationMiddleware.cs:41 | any number of leading copies of the scheme disappear from the token, because every occurrence is removed and not only a prefix |
| Text.NatToString | Controllers/UsersController.cs:54 | `{id}` formatting of a non-negative number: a non-empty run of decimal digits whose decimal value is the number, with no leading zero; it starts with '0' exactly for 0, and then it is "0" |
| Text.IntToString | Controllers/UsersController.cs:54 | `{id}` formatting: a leading '-' exactly for a negative number; no leading zero, and no "-0"; the text is a canonical signed numeral whose signed decimal value is the number |
| Text.DecimalUnique | Controllers/UsersController.cs:54 | every canonical decimal numeral is exactly the text `NatToString` writes for its value, so the formatting is the only canonical spelling of a number |
| Text.SignedDecimalUnique | Controllers/UsersController.cs:54 | every canonical signed numeral is exactly the text `IntToString` writes for its value |
| Authentication.StartsWithSegments | Middleware/AuthenticationMiddleware.cs:17 | `PathString.StartsWithSegments`: the prefix matches ignoring case and ends at the end of the path or at a `/`; so a match is an ignore-case prefix, and an ignore-case equal path always matches |
| Authentication.IsPublicListing | Middleware/AuthenticationMiddleware.cs:27 | the path equals "/api/users" ignoring case and the method is exactly "GET"; so a public listing has method "GET" and a 10-character path |
| Authentication.Guarded | Middleware/AuthenticationMiddleware.cs:17-31 | a guarded request is not under the `/swagger` segment, is under the `/api` segment, and is not the public listing; so its path starts with "/api" ignoring case, and a guarded GET is not on "/api/users" |
| Authentication.TokenOf | Middleware/AuthenticationMiddleware.cs:41 | the token is the header with every "Bearer " removed; it is never longer than the header, and equals it exactly when the header holds no "Bearer " |
| Authentication.Decide | Middleware/AuthenticationMiddleware.cs:14-51 | the request is admitted exactly when it is unguarded or its token is "valid-token-123"; it is refused with "Missing Authorization header" exactly when it is guarded and has no header; it is refused with "Invalid token" exactly when it is guarded and the token differs; every refusal is 401 |
| Authentication.SwaggerAlwaysAdmitted | Middleware/AuthenticationMiddleware.cs:17-21 | a path under the `/swagger` segment is admitted whatever the headers |
| Authentication.NonApiAdmitted | Middleware/AuthenticationMiddleware.cs:24-50 | a path outside the `/api` segment is admitted with any header or none |
| Authentication.PublicListingAdmitted | Middleware/AuthenticationMiddleware.cs:27-31 | `GET /api/users` is admitted without a header, and so is `GET /API/Users`, because path comparison ignores case |
| Authentication.ListingVariantsGuarded | Middleware/AuthenticationMiddleware.cs:27-39 | `GET /api/users/` and `POST /api/users` without a header are refused with "Missing Authorization header" |
| Authentication.BareTokenAccepted | Middleware/AuthenticationMiddleware.cs:41-42 | the bare token "valid-token-123" is its own token |
| Authentication.BearerTokenAccepted | Middleware/AuthenticationMiddleware.cs:41-50 | the header "Bearer valid-token-123" yields the expected token |
| Authentication.NoSchemeWithoutCapitalB | Middleware/AuthenticationMiddleware.cs:41 | a header without a capital B holds no occurrence of the scheme |
| Authentication.TokenWithoutCapitalB | Middleware/AuthenticationMiddleware.cs:41 | a header without a capital B is its own token |
| Authentication.LowerCaseSchemeRefused | Middleware/AuthenticationMiddleware.cs:41-47 | "bearer valid-token-123" keeps its lower-case scheme, so its token is not the expected one |
| Authentication.RepeatedSchemeAccepted | Middleware/AuthenticationMiddleware.cs:41-42 | "Bearer " repeated any number of times before the token still yields the expected token |
| Authentication.TrailingSchemeAccepted | Middleware/AuthenticationMiddleware.cs:41-42 | "valid-token-123Bearer " yields the expected token: a "Bearer " after the token is removed too |
| Authentication.GuardedHeaders | Middleware/AuthenticationMiddleware.cs:34-47 | on a guarded request: a missing header gives 401 "Missing Authorization header"; "bearer valid-token-123" gives 401 "Invalid token" because the removal is case-sensitive; any number of "Bearer " prefixes followed by the token is admitted |
| Authentication.GateReply | Middleware/AuthenticationMiddleware.cs:14-51 | the gate never writes an empty body; the ids in the store stay within Int32; the chain raises only when the request was admitted and its model binding failed, and then the store is untouched |
| Authentication.GateOutcomes | Middleware/AuthenticationMiddleware.cs:14-51 | exactly one outcome: either the endpoint runs, or the store is unchanged and a 401 reply with no content type and one of the two messages is produced |
| Authentication.Invoke | Middleware/AuthenticationMiddleware.cs:14-51 | the store and the response are what `GateReply` says; a refusal sets 401 and writes the message without calling the endpoint, and leaves the request body at position 0; an admitted create or update reads it to its end |
| RequestLogging.Loggable | Middleware/RequestLoggingMiddleware.cs:74-76 | the content type is present and contains "application/json", "application/xml" or "text/", case-sensitively; so a logged content type is at least 5 characters long |
| RequestLogging.Truncate | Middleware/RequestLoggingMiddleware.cs:80 | a body of at most 1000 characters is kept as is; a longer one becomes its first 1000 characters followed by "...", 1003 characters in all |
| RequestLogging.TruncateKeepsPrefix | Middleware/RequestLoggingMiddleware.cs:80 | the snippet agrees with the body on every position it keeps |
| RequestLogging.TruncateIdempotent | Middleware/RequestLoggingMiddleware.cs:80 | truncating a snippet again changes nothing |
| RequestLogging.TruncateLosesTail | Middleware/RequestLoggingMiddleware.cs:80 | two long bodies that share their first 1000 characters are logged identically |
| RequestLogging.ContainsAnywhere | Middleware/RequestLoggingMiddleware.cs:74-76 | a marker placed anywhere in a text is contained in it |
| RequestLogging.LoggableAnywhere | Middleware/RequestLoggingMiddleware.cs:74-76 | the content-type gate is a containment test: "application/json", "application/xml" or "text/" anywhere in the header value enables logging |
| RequestLogging.Snippet | Middleware/RequestLoggingMiddleware.cs:66-89 | a readable, non-failing stream with a logged content type gives `Truncate` of the rest of the body; in every other case the snippet is ""; a snippet never exceeds 1003 characters |
| RequestLogging.ReadRequestBody | Middleware/RequestLoggingMiddleware.cs:66-89 | a null body gives ""; otherwise the result is `Snippet` of the rest of the stream; the stream content is unchanged and its position moves to the end only when it was read; a read failure is swallowed |
| RequestLogging.Trail | Middleware/RequestLoggingMiddleware.cs:20-54 | the log entries in order: the request line first, the body snippet only when non-empty, then the status and the whole response text; when the inner stages raised, no response entry at all |
| RequestLogging.RejectedRequestsAreLogged | Middleware/RequestLoggingMiddleware.cs:43-54 | a request refused by the gate gets a reply, and its 401 status and its message are logged |
| RequestLogging.ResponseLoggedInFull | Middleware/RequestLoggingMiddleware.cs:52-54 | the response text is logged whole, with no truncation |
| RequestLogging.LogRequest | Middleware/RequestLoggingMiddleware.cs:20-34 | logs the request line and the non-empty snippet; afterwards the request body holds the same content at position 0, ready for the stages after |
| RequestLogging.Deliver | Middleware/RequestLoggingMiddleware.cs:48-58 | the status and the buffer's whole text are logged; the original sink receives exactly the buffer's text at its position, unless the buffer is empty or the connection is gone; the copy raises the transport fault exactly when there was text to copy to a dead connection |
| RequestLogging.CaptureResponse | Middleware/RequestLoggingMiddleware.cs:37-63 | the inner stages run against a fresh buffer; when they reply, the status and the buffer text are logged and the buffer is copied to the original sink, which so receives exactly the reply's text at its old position; when they raise, nothing is logged or copied, the response is untouched and the same exception goes on; the original sink is back in place either way; the request body, handed over at position 0, has been read to its end exactly when an admitted create or update bound it |
| RequestLogging.Invoke | Middleware/RequestLoggingMiddleware.cs:14-64 | the request body keeps its content; it is rewound for the stages after, so it ends at its end exactly when an admitted create or update bound it, and at 0 otherwise; the response is exactly the inner outcome, copied to the restored sink; the log grows by `Trail` |
| ErrorHandling.StatusFor | Middleware/ErrorHandlingMiddleware.cs:39-46 | the switch is total and its status is always in {400, 401, 404, 409, 500}; 404 iff KeyNotFound or ArgumentNull; 401 iff UnauthorizedAccess; 400 iff an ArgumentException other than ArgumentNull; 409 iff InvalidOperation |
| ErrorHandling.ErrorTitle | Middleware/ErrorHandlingMiddleware.cs:65-77 | the titles of 400, 401, 403, 404, 409 and 500, and "Error" for every other status |
| ErrorHandling.CaughtTitles | Middleware/ErrorHandlingMiddleware.cs:39-77 | a caught exception is never titled "Forbidden" or "Error" |
| ErrorHandling.TitlesDistinguishStatuses | Middleware/ErrorHandlingMiddleware.cs:65-77 | distinct titled statuses have distinct titles, and "Error" names exactly the other statuses |
| ErrorHandling.EnvelopeFor | Middleware/ErrorHandlingMiddleware.cs:48-57 | `success` is false; `error` is the status title; `message` is the exception's; `detail` is present iff the environment is Development, and is then the stack trace; `path` and `method` are copied from the request |
| Json.Serialize | Middleware/ErrorHandlingMiddleware.cs:59-60 | the text is never empty; an object is written between `{` and `}`, an array between `[` and `]`, a string between quotes |
| ErrorHandling.RenderEnvelope | Middleware/ErrorHandlingMiddleware.cs:48-60 | the envelope text is non-empty and opens with `{` |
| ErrorHandling.ErrorReply | Middleware/ErrorHandlingMiddleware.cs:34-63 | the reply has the switch's status, content type "application/json" and, as its non-empty body, the serialised envelope for the exception, the request and the time |
| ErrorHandling.Caught | Middleware/ErrorHandlingMiddleware.cs:23-27 | what the `catch` receives: a binding fault is caught as is; a reply with text on a dead connection raises the transport fault; a reply on a live connection raises nothing; on a live connection something is caught iff the request was admitted and its binding failed |
| ErrorHandling.HandleException | Middleware/ErrorHandlingMiddleware.cs:34-63 | the content type, the status and the envelope text are produced on the response |
| ErrorHandling.Recover | Middleware/ErrorHandlingMiddleware.cs:27-31 | the exception is logged once, then its envelope is produced on the response; the request body is not touched |
| ErrorHandling.ChainReply | Middleware/ErrorHandlingMiddleware.cs:21-32 | without an exception the inner reply is the answer, untouched; with one, the answer is a JSON envelope whose status follows the exception's class |
| ErrorHandling.Invoke | Middleware/ErrorHandlingMiddleware.cs:21-32 | the response is `ChainReply`; the caught exception, and only it, is logged; the error write's own failure escapes; the request body ends as the logger leaves it |
| UserStore.Increment32 | Services/UserService.cs:25 | `Max + 1` on Int32 is unchecked: it adds one below the ceiling and wraps to Int32 min at the ceiling |
| UserStore.ActiveUsers | Services/UserService.cs:14 | exactly the active records are returned |
| UserStore.ActiveUsersAppend | Services/UserService.cs:14 | filtering distributes over concatenation, so list order is kept |
| UserStore.FindActive | Services/UserService.cs:16 | the index of the first active record with the id, and None exactly when there is none |
| UserStore.Lookup | Services/UserService.cs:16 | a record is found iff an active record has the id; the result is active, carries the id and is the first such record |
| UserStore.EmailRegistered | Services/UserService.cs:21 | some record, active or not, has the email ignoring case; so the list is non-empty, and any stored record's own email is registered |
| UserStore.EmailRegisteredToOther | Services/UserService.cs:39 | some record with another id has the email ignoring case; so the email is registered |
| UserStore.EmailInUse | Services/UserService.cs:63-66 | some active record, other than the excluded id, has the email ignoring case; so the email is registered, and registered to another id when one is excluded |
| UserStore.SoftDeletedEmailStillRegistered | Services/UserService.cs:18-67 | the converse fails: a soft-deleted record's email is not reported by `EmailExists`, yet it blocks creation |
| UserStore.MaxId | Services/UserService.cs:25 | the result is some record's id and bounds every id |
| UserStore.NextId | Services/UserService.cs:25 | the generated id is an Int32 |
| UserStore.NextIdIsFresh | Services/UserService.cs:25 | below the Int32 ceiling the generated id exceeds every existing id: it is the largest id plus one on a non-empty list, and 1 on an empty list |
| UserStore.NextIdWrapsAtCeiling | Services/UserService.cs:25 | at the ceiling the generated id wraps to Int32 min, and the following creation repeats it |
| UserStore.DuplicateEmail | Services/UserService.cs:22-40 | the duplicate-email exception is an `ArgumentException` and not an `ArgumentNullException` |
| UserStore.Registered | Services/UserService.cs:25-27 | the created record has the generated id `NextId`, the creation time and `IsActive` set, and keeps name, email and department |
| UserStore.Edited | Services/UserService.cs:42-45 | the update sets name, email, department and update time, and keeps id, activity and creation time |
| UserStore.CreateKeepsIdsUnique | Services/UserService.cs:25-29 | below the ceiling a creation keeps ids unique and appends one active record to the listing |
| UserStore.DeleteIsFinal | Services/UserService.cs:52-58 | with unique ids, a lookup after the soft delete finds nothing |
| UserStore.SeedUsers | Services/UserService.cs:7-12 | the three seed records: ids 1 to 3, all active and never updated; names "John Doe", "Jane Smith", "Bob Johnson"; emails "john@example.com", "jane@example.com", "bob@example.com"; departments "HR", "IT", "Finance"; created 30, 15 and 7 days before now; ids unique and within Int32 |
| UserStore.UserService.constructor | Services/UserService.cs:7-12 | a new service holds exactly the seed records, whose emails are "john@example.com", "jane@example.com" and "bob@example.com" |
| UserStore.UserService.GetAllUsers | Services/UserService.cs:14 | a record is returned iff it is stored and active |
| UserStore.UserService.GetUserById | Services/UserService.cs:16 | a record is returned iff an active record has the id, and it is such a record |
| UserStore.UserService.CreateUser | Services/UserService.cs:18-31 | an email registered on any record, ignoring case, fails with the duplicate-email exception and changes nothing; otherwise exactly the `Registered` record is appended and returned |
| UserStore.UserService.UpdateUser | Services/UserService.cs:33-48 | no active record with the id returns null and changes nothing; an email registered to another id throws and changes nothing; otherwise only that record is replaced by its `Edited` form, which is returned |
| UserStore.UserService.DeleteUser | Services/UserService.cs:50-59 | returns true iff an active record has the id; then only that record is marked inactive and given an update time; otherwise nothing changes |
| UserStore.UserService.EmailExists | Services/UserService.cs:61-67 | the answer is `EmailInUse`; a reported email is registered, so it would block creation |
| UsersController.NotFoundError | Controllers/UsersController.cs:54 | the message is "User with ID ", then the id as a canonical signed numeral (no leading zero, no "-0", a '-' exactly when the id is negative) whose signed decimal value is the id, then " not found" |
| UsersController.NotFoundErrorNamesId | Controllers/UsersController.cs:54 | two ids share a not-found message only when they are equal |
| UsersController.ListResult | Controllers/UsersController.cs:20-40 | 200 iff the service returned, with `count` equal to the number of users returned; otherwise 500 "Failed to retrieve users" |
| UsersController.GetResult | Controllers/UsersController.cs:45-71 | 200 with the user iff one was found; 404 "User with ID {id} not found" iff null; 500 "Failed to retrieve user" with the message otherwise |
| UsersController.CreateResult | Controllers/UsersController.cs:91-117 | 201 "User created successfully" with the user iff created; 409 "Conflict" with the exception's message iff an `ArgumentException` (including `ArgumentNullException`); 500 "Failed to create user" with the message for any other exception |
| UsersController.UpdateResult | Controllers/UsersController.cs:136-168 | 200 "User updated successfully" with the user iff updated; 404 "User with ID {id} not found" iff null; 409 "Conflict" with the message iff an `ArgumentException`; 500 "Failed to update user" with the message for any other exception |
| UsersController.DeleteResult | Controllers/UsersController.cs:175-199 | 200 "User with ID {id} deleted successfully" iff deleted; 404 "User with ID {id} not found" iff the service returned false; 500 "Failed to delete user" with the message when it threw |
| UsersController.InvalidModelResult | Controllers/UsersController.cs:81-89 | an invalid model is answered 400 "Validation failed" with the error list |
| UsersController.Perform | Controllers/UsersController.cs:18-199 | every action's answer has `success = true` exactly on a 2xx status, and the store never shrinks |
| UsersController.ListCountsActive | Controllers/UsersController.cs:20-30 | the listing is 200 and its count is the number of active records |
| UsersController.InvalidModelLeavesStore | Controllers/UsersController.cs:81-134 | an invalid model never reaches the service |
| UsersController.DuplicateCreateIsConflict | Controllers/UsersController.cs:91-107 | creating with an email registered in any letter case, even on a soft-deleted record, is 409 and leaves the store unchanged |
| UsersController.SeedEmailsConflict | Controllers/UsersController.cs:91-107 | on a new service, creating with any seed email in any letter case is 409 and stores nothing |
| UsersController.SeedEmailUpperCaseConflict | Controllers/UsersController.cs:91-107 | on a new service, creating "JOHN@example.com" is 409 |
| UsersController.CreateAppendsOne | Controllers/UsersController.cs:91-98 | below the Int32 ceiling and with unique ids, a creation with a fresh email is 201, appends exactly one active record returned in the envelope, keeps ids unique and raises the active count by one |
| UsersController.DeleteTwice | Controllers/UsersController.cs:175-189 | with unique ids, deleting an active id is 200 and lowers the active count by one; deleting it again is 404 and changes nothing |
| UsersController.UpdateChangesOnlyTarget | Controllers/UsersController.cs:136-149 | a successful update is 200, keeps every other record and both counts, and changes only the target's editable fields |
| UsersController.UsersController.GetAllUsers | Controllers/UsersController.cs:20-41 | the answer is `ListResult` of a successful query returning exactly the active records |
| UsersController.UsersController.GetUser | Controllers/UsersController.cs:45-72 | the answer is `GetResult` of a successful lookup of the id |
| UsersController.UsersController.CreateUser | Controllers/UsersController.cs:76-118 | the store and answer are `Perform`'s for the create; the service is not called on an invalid model |
| UsersController.UsersController.UpdateUser | Controllers/UsersController.cs:122-169 | the store and answer are `Perform`'s for the update |
| UsersController.UsersController.DeleteUser | Controllers/UsersController.cs:173-199 | the store and answer are `Perform`'s for the delete |
| UsersController.RenderBody | Controllers/UsersController.cs:25-97 | every envelope is written as non-empty text opening with `{` |
| UsersController.Run | Controllers/UsersController.cs:18-199 | calling the routed action leaves the store and gives the answer that `Perform` says |
| UsersController.ReadBoundBody | Controllers/UsersController.cs:76 | `[FromBody]` binding reads the request body from position 0 to its end; the content is unchanged and the text read is all of it |
| UsersController.EndpointReply | Controllers/UsersController.cs:18-199 | with no matching route: 404, nothing written, store unchanged; when model binding raised: that exception, nothing written, store unchanged; otherwise a JSON body is written |
| UsersController.Dispatch | Controllers/UsersController.cs:18-199 | the store and the response are what `EndpointReply` says; the request body, found at position 0, is read to its end exactly for a create or an update, whose `[FromBody]` binding reads it, and is otherwise left at 0 |
| Pipeline.ProcessRequest | Program.cs:15-17 | on a live connection the sink receives exactly the chain's reply text, and nothing escapes; on a dead one the sink is untouched and an exception escapes exactly when the inner stages raised; the store and the log are as the stages say; the request body keeps its content and ends at its end exactly when an admitted create or update bound it |
| Pipeline.BoundaryIdleOnLiveConnection | Middleware/ErrorHandlingMiddleware.cs:23-26 | on a live connection, unless model binding failed, the boundary catches nothing and the inner reply is the answer |
| Pipeline.BindingFaultAnswer | Middleware/RequestLoggingMiddleware.cs:41-63 | when an admitted request's binding raises, the store is untouched, the logger writes no response entry, and the boundary catches that very exception and answers with its envelope, whose status follows its class |
| Pipeline.RefusedRequestsEndAtTheGate | Program.cs:15-17 | a refused request never reaches the store, is answered 401 with its message, raises nothing on a live connection, and its status is still logged |
| Pipeline.DeadConnectionAnswer | Middleware/ErrorHandlingMiddleware.cs:27-57 | when the connection is gone and a reply with text was attempted, the boundary catches the transport fault and answers with the 500 "Internal Server Error" envelope, with a detail only in Development |
| Pipeline.DuplicateEmailStatusByCatcher | Controllers/UsersController.cs:100-107 | the duplicate-email exception is 409 from the controller, which catches it, but would be 400 from the boundary |
| Pipeline.ArgumentNullStatusByCatcher | Middleware/ErrorHandlingMiddleware.cs:41-43 | `ArgumentNullException` is 409 to the controller but 404 to the boundary, which tests it before `ArgumentException` |
| Pipeline.AuthorisedDuplicateCreate | Program.cs:15-17 | end to end: an authorised create with a registered email leaves the store unchanged and answers 409 with the duplicate message |

## Left out

- Logging: `ILogger` levels, message formatting and the debug line listing the request headers are not modelled. Each logging call appends one structured entry to `Logger.entries`.
- Time: clocks are one `now` instant per request, passed in. The request duration is not modelled, and neither are its floating-point millisecond format and date formatting. Dates are rendered as their tick count.
- JSON: each envelope is a `Json.Value` written in compact form, members in declaration order; only `"` and `\` are escaped, so the text is not claimed to match `System.Text.Json` byte for byte. Text encoding (UTF-8) and `StreamReader` decoding are not modelled: streams hold characters, and a model `char` stands for a .NET UTF-16 `char`, so `Substring(0, 1000)` counts UTF-16 code units as the model counts characters.
- Request buffering: `EnableBuffering` is not modelled; the request body stream is seekable from the start.
- Routing, model binding and `ModelState` validation are inputs:
  - `Request.route` is the selected action with its bound model and its list of model errors;
  - `Unmatched` means the framework's 404 with nothing written;
  - `BindingFailed(fault)` means binding raised `fault` before any action ran; which requests make binding fail is an input.
  - A create or update whose body cannot be read is a `BindingFailed` route: the stages require `BindableFrom`, so a `Matched` create or update always has a readable, live request body. How far a failed binding read the body before raising is not modelled; the model leaves it at position 0.
  - The bound `User` and its model errors are part of the route: the binder's parse of the text read by `ReadBoundBody` is not modelled.
  - The framework's automatic 400 for invalid models under `[ApiController]` is not modelled; the action's own check is.
- Headers: lookup and multi-value joining are inputs. `Request.authorization` is the header's joined value.
- Case folding: ignore-case comparisons fold ASCII letters only.
- Concurrency: one request at a time. The singleton store is shared without synchronisation in the source; races and async scheduling are not modelled.
- Configuration: the `ApiKey` value set at `Program.cs:23` is never read by the gate. The model compares with the literal, as the source does.
- Aliasing: records are values. The service's returned user and the caller's input object alias the stored record in the source; the model returns copies. `CreateUser` in the source also writes the id, date and flag into the caller's object; the model returns the updated value instead.
- Models/User.cs is not part of this model: the record's fields are inferred from their uses, and its validation attributes appear only as the model-error list.
- Status after start: setting the status after the response has started raises `InvalidOperationException` in ASP.NET. This is not modelled, so after a failed write the boundary's status and content type are recorded as set.
- Models.AddDays: only seeds the creation dates of the initial records; its contract (a negative count moves into the past) is not listed as a property of the system.
- UserStore.UserService.GetAllUsers: states membership; list order is stated separately by `UserStore.ActiveUsersAppend` about `ActiveUsers`.
- HTTPS redirection, Swagger, dependency injection and console output in `Program.cs` are host set-up, not modelled.

=== FILE: authentication.dfy ===
/** The authentication gate: swagger paths and paths outside `/api` pass,
    `GET /api/users` passes, every other `/api` request needs an
    `Authorization` header whose value, with every "Bearer " removed, is the
    fixed token; otherwise the gate answers 401 with a plain-text message and
    does not call the rest of the chain. */
module Authentication {
  import opened Wrappers
  import opened Text
  import opened Models
  import opened Http
  import opened UserStore
  import opened UsersController

  const SwaggerPrefix := "/swagger"
  const ApiPrefix := "/api"
  const PublicListPath := "/api/users"
  const BearerScheme := "Bearer "
  /** The token is this literal; no configuration value is consulted. */
  const ExpectedToken := "valid-token-123"
  /** The scheme in lower case: `Replace` is ordinal, so this spelling is not removed. */
  const LowerCaseScheme := "bearer "
  const MissingHeaderMessage := "Missing Authorization header"
  const InvalidTokenMessage := "Invalid token"

  /** `PathString.StartsWithSegments(prefix)`: an ignore-case prefix that ends
      at the end of the path or at a `/`. */
  predicate StartsWithSegments(path: string, prefix: string)
    ensures StartsWithSegments(path, prefix) ==> StartsWithIgnoreCase(path, prefix)
    ensures EqualsIgnoreCase(path, prefix) ==> StartsWithSegments(path, prefix)
  {
    StartsWithIgnoreCase(path, prefix) && (|path| == |prefix| || path[|prefix|] == '/')
  }

  /** `Path == "/api/users" && Method == "GET"`: path equality ignores case,
      method equality does not. */
  predicate IsPublicListing(req: Request)
    ensures IsPublicListing(req) ==> req.verb == "GET" && |req.path| == |PublicListPath|
  {
    EqualsIgnoreCase(req.path, PublicListPath) && req.verb == "GET"
  }

  /** The requests whose credentials the gate checks. */
  predicate Guarded(req: Request)
    ensures Guarded(req) ==> StartsWithIgnoreCase(req.path, ApiPrefix)
    ensures Guarded(req) && req.verb == "GET" ==> !EqualsIgnoreCase(req.path, PublicListPath)
  {
    !StartsWithSegments(req.path, SwaggerPrefix) && StartsWithSegments(req.path, ApiPrefix) && !IsPublicListing(req)
  }

  /** `authHeader.ToString().Replace("Bearer ", "")`: never longer than the
      header, and equal to it exactly when the header holds no "Bearer ". */
  function TokenOf(header: string): (t: string)
    ensures |t| <= |header|
    ensures t == header <==> !Contains(header, BearerScheme)
  {
    RemoveAll(header, BearerScheme)
  }

  datatype Decision = Admit | Reject(status: int, message: string)

  /** The gate's decision. */
  function Decide(req: Request): (d: Decision)
    ensures d == Admit <==>
              !Guarded(req) || (req.authorization.Some? && TokenOf(req.authorization.value) == ExpectedToken)
    ensures d == Reject(401, MissingHeaderMessage) <==> Guarded(req) && req.authorization.None?
    ensures d == Reject(401, InvalidTokenMessage) <==>
              Guarded(req) && req.authorization.Some? && TokenOf(req.authorization.value) != ExpectedToken
    ensures d.Reject? ==> d.status == 401
  {
    if StartsWithSegments(req.path, SwaggerPrefix) then Admit
    else if StartsWithSegments(req.path, ApiPrefix) then
      if IsPublicListing(req) then Admit
      else if req.authorization.None? then Reject(401, MissingHeaderMessage)
      else if TokenOf(req.authorization.value) != ExpectedToken then Reject(401, InvalidTokenMessage)
      else Admit
    else Admit
  }

  // ---------------------------------------------------------------- properties of the decision

  /** Swagger paths pass whatever the headers. */
  lemma SwaggerAlwaysAdmitted(req: Request)
    requires StartsWithSegments(req.path, SwaggerPrefix)
    ensures Decide(req) == Admit
    ensures forall h: Option<string> :: Decide(req.(authorization := h)) == Admit
  {
  }

  /** A path outside `/api` (and `/swagger`) passes without any header inspection. */
  lemma NonApiAdmitted(req: Request)
    requires !StartsWithSegments(req.path, ApiPrefix)
    ensures forall h: Option<string> :: Decide(req.(authorization := h)) == Admit
  {
  }

  /** The public listing needs no header, and its path is matched ignoring case. */
  lemma PublicListingAdmitted(query: string, contentType: Option<string>, route: Route)
    ensures Decide(Request("GET", "/api/users", query, contentType, None, route)) == Admit
    ensures Decide(Request("GET", "/API/Users", query, contentType, None, route)) == Admit
  {
    assert EqualsIgnoreCase("/API/Users", PublicListPath);
    assert StartsWithSegments("/API/Users", ApiPrefix) by {
      assert "/API/Users"[..|ApiPrefix|] == "/API";
      assert EqualsIgnoreCase("/API", ApiPrefix);
    }
    assert StartsWithSegments("/api/users", ApiPrefix) by {
      assert "/api/users"[..|ApiPrefix|] == "/api";
    }
  }

  /** A trailing slash, or another method, makes the listing path guarded. */
  lemma ListingVariantsGuarded(query: string, contentType: Option<string>, route: Route)
    ensures Decide(Request("GET", "/api/users/", query, contentType, None, route)) == Reject(401, MissingHeaderMessage)
    ensures Decide(Request("POST", "/api/users", query, contentType, None, route)) == Reject(401, MissingHeaderMessage)
  {
    assert !EqualsIgnoreCase("/api/users/", PublicListPath);
    assert !StartsWithSegments("/api/users/", SwaggerPrefix) by {
      assert "/api/users/"[..|SwaggerPrefix|] == "/api/use";
      assert Upper("/api/use"[1]) != Upper(SwaggerPrefix[1]);
    }
    assert !StartsWithSegments("/api/users", SwaggerPrefix) by {
      assert "/api/users"[..|SwaggerPrefix|] == "/api/use";
      assert Upper("/api/use"[1]) != Upper(SwaggerPrefix[1]);
    }
    assert StartsWithSegments("/api/users/", ApiPrefix) by {
      assert "/api/users/"[..|ApiPrefix|] == "/api";
    }
    assert StartsWithSegments("/api/users", ApiPrefix) by {
      assert "/api/users"[..|ApiPrefix|] == "/api";
    }
  }

  /** A header without a capital B is its own token. */
  lemma TokenWithoutCapitalB(h: string)
    requires forall i :: 0 <= i < |h| ==> h[i] != 'B'
    ensures TokenOf(h) == h
  {
    NoSchemeWithoutCapitalB(h);
  }

  /** The bare token passes: it holds no occurrence of the scheme. */
  lemma BareTokenAccepted()
    ensures TokenOf(ExpectedToken) == ExpectedToken
  {
    var t := ExpectedToken;
    assert forall i :: 0 <= i < |t| ==> t[i] != 'B';
    TokenWithoutCapitalB(t);
  }

  /** The documented header value "Bearer valid-token-123" passes. */
  lemma BearerTokenAccepted()
    ensures TokenOf(BearerScheme + ExpectedToken) == ExpectedToken
  {
    BareTokenAccepted();
    var s := BearerScheme + ExpectedToken;
    assert s[..|BearerScheme|] == BearerScheme;
    assert s[|BearerScheme|..] == ExpectedToken;
  }

  /** A text without a capital B holds no occurrence of the scheme. */
  lemma {:induction false} NoSchemeWithoutCapitalB(s: string)
    requires forall i :: 0 <= i < |s| ==> s[i] != 'B'
    ensures !Contains(s, BearerScheme)
    decreases |s|
  {
    if |s| > 0 {
      if |BearerScheme| <= |s| {
        assert s[..|BearerScheme|][0] != BearerScheme[0];
      }
      NoSchemeWithoutCapitalB(s[1..]);
    }
  }

  /** Any number of "Bearer " prefixes, including none, is accepted before the
      token, because every occurrence is removed. */
  lemma RepeatedSchemeAccepted(n: nat)
    ensures TokenOf(Repeat(BearerScheme, n) + ExpectedToken) == ExpectedToken
  {
    RemoveAllLeadingCopies(BearerScheme, n, ExpectedToken);
    BareTokenAccepted();
  }

  /** A "Bearer " after the token is removed too: the replacement is not
      anchored at the front of the header. */
  lemma TrailingSchemeAccepted()
    ensures TokenOf(ExpectedToken + BearerScheme) == ExpectedToken
  {
    var t := ExpectedToken;
    assert forall i :: 0 <= i < |t| ==> t[i] != BearerScheme[0];
    RemoveAllKeepsPrefix(t, BearerScheme, BearerScheme);
    assert BearerScheme[..|BearerScheme|] == BearerScheme;
    assert BearerScheme[|BearerScheme|..] == [];
    assert RemoveAll(BearerScheme, BearerScheme) == [];
  }

  /** On a guarded request the gate admits exactly the headers whose token is
      the expected one; a header with a lower-case scheme is refused. */
  lemma GuardedHeaders(req: Request, n: nat)
    requires Guarded(req)
    ensures Decide(req.(authorization := Some(Repeat(BearerScheme, n) + ExpectedToken))) == Admit
    ensures Decide(req.(authorization := None)) == Reject(401, MissingHeaderMessage)
    ensures Decide(req.(authorization := Some(LowerCaseScheme + ExpectedToken))) == Reject(401, InvalidTokenMessage)
  {
    var repeated := req.(authorization := Some(Repeat(BearerScheme, n) + ExpectedToken));
    var missing := req.(authorization := None);
    var lower := req.(authorization := Some(LowerCaseScheme + ExpectedToken));
    assert Guarded(repeated) && Guarded(missing) && Guarded(lower);
    RepeatedSchemeAccepted(n);
    LowerCaseSchemeRefused();
  }

  /** The removal is case-sensitive: a lower-case scheme stays in the token. */
  lemma LowerCaseSchemeRefused()
    ensures TokenOf(LowerCaseScheme + ExpectedToken) == LowerCaseScheme + ExpectedToken
    ensures TokenOf(LowerCaseScheme + ExpectedToken) != ExpectedToken
  {
    var h := LowerCaseScheme + ExpectedToken;
    assert forall i :: 0 <= i < |h| ==> h[i] != 'B';
    TokenWithoutCapitalB(h);
    assert |h| != |ExpectedToken|;
  }

  // ---------------------------------------------------------------- the middleware

  /** What the gate and everything after it produce: the endpoint's effect and
      outcome when admitted, otherwise the 401 reply with the store untouched. */
  function GateReply(users: seq<User>, req: Request, now: Instant): (p: (seq<User>, Outcome))
    requires IdsInInt32(users)
    ensures IdsInInt32(p.0)
    ensures p.1.Replied? ==> p.1.reply.body != Some([])
    ensures p.1.Raised? ==> p.0 == users && Decide(req).Admit? && req.route == BindingFailed(p.1.exception)
  {
    match Decide(req)
    case Admit => EndpointReply(users, req.route, now)
    case Reject(status, message) => (users, Replied(Reply(status, None, Some(message))))
  }

  /** Every request ends in exactly one of two ways: the endpoint ran, or a
      401 with one of the two messages was written and the store is unchanged. */
  lemma GateOutcomes(users: seq<User>, req: Request, now: Instant)
    requires IdsInInt32(users)
    ensures Decide(req).Admit? ==> GateReply(users, req, now) == EndpointReply(users, req.route, now)
    ensures Decide(req).Reject? ==>
              GateReply(users, req, now).0 == users
              && GateReply(users, req, now).1.Replied?
              && GateReply(users, req, now).1.reply.status == 401
              && GateReply(users, req, now).1.reply.contentType == None
              && GateReply(users, req, now).1.reply.body in {Some(MissingHeaderMessage), Some(InvalidTokenMessage)}
  {
  }

  /** `InvokeAsync`: calls the endpoint when admitted, otherwise writes the 401. */
  method Invoke(ctx: HttpContext, controller: UsersController, now: Instant) returns (thrown: Option<Exception>)
    requires ctx.Valid() && controller.service.Valid()
    requires ctx.requestBody.position == 0
    requires BindableFrom(ctx.request.route, ctx.requestBody.canRead, ctx.requestBody.failing)
    modifies ctx, ctx.requestBody, ctx.responseBody, controller.service
    ensures ctx.Valid() && controller.service.Valid()
    ensures ctx.requestBody.data == old(ctx.requestBody.data)
    ensures ctx.requestBody.position == if Decide(ctx.request).Admit? && ReadsBody(ctx.request.route) then |ctx.requestBody.data| else 0
    ensures controller.service.users == GateReply(old(controller.service.users), ctx.request, now).0
    ensures Produced(ctx, GateReply(old(controller.service.users), ctx.request, now).1, thrown)
  {
    match Decide(ctx.request) {
      case Admit =>
        thrown := Dispatch(ctx, controller, now);
      case Reject(status, message) =>
        ctx.statusCode := status;
        thrown := ctx.responseBody.Write(message);
    }
  }
}

=== FILE: error_handling.dfy ===
/** The error boundary: runs the rest of the chain and, when an exception
    comes out of it, logs it and answers with a JSON error envelope whose
    status is chosen from the exception's class. */
module ErrorHandling {
  import opened Wrappers
  import opened Text
  import opened Json
  import opened Models
  import opened Http
  import opened UserStore
  import opened UsersController
  import opened Authentication
  import opened RequestLogging

  const ErrorContentType := "application/json"

  /** The exception switch. Its arms are tried in order, so an
      `ArgumentNullException`, although an `ArgumentException`, gets 404. */
  function StatusFor(kind: ExceptionKind): (status: int)
    ensures status in {400, 401, 404, 409, 500}
    ensures status == 404 <==> kind == KeyNotFound || kind == ArgumentNull
    ensures status == 401 <==> kind == UnauthorizedAccess
    ensures status == 400 <==> IsArgumentException(kind) && kind != ArgumentNull
    ensures status == 409 <==> kind == InvalidOperation
    ensures status == 500 <==> kind == IO || kind == Other
  {
    match kind
    case KeyNotFound => 404
    case ArgumentNull => 404
    case UnauthorizedAccess => 401
    case Argument => 400
    case InvalidOperation => 409
    case IO => 500
    case Other => 500
  }

  /** `GetErrorTitle`. */
  function ErrorTitle(status: int): (title: string)
    ensures status == 400 ==> title == "Bad Request"
    ensures status == 401 ==> title == "Unauthorized"
    ensures status == 403 ==> title == "Forbidden"
    ensures status == 404 ==> title == "Not Found"
    ensures status == 409 ==> title == "Conflict"
    ensures status == 500 ==> title == "Internal Server Error"
    ensures status !in {400, 401, 403, 404, 409, 500} ==> title == "Error"
  {
    if status == 400 then "Bad Request"
    else if status == 401 then "Unauthorized"
    else if status == 403 then "Forbidden"
    else if status == 404 then "Not Found"
    else if status == 409 then "Conflict"
    else if status == 500 then "Internal Server Error"
    else "Error"
  }

  /** No caught exception is ever titled "Forbidden" or "Error": the switch
      never produces 403 nor a status outside the titled ones. */
  lemma CaughtTitles(kind: ExceptionKind)
    ensures ErrorTitle(StatusFor(kind)) != "Forbidden"
    ensures ErrorTitle(StatusFor(kind)) != "Error"
  {
    var s := StatusFor(kind);
    assert s in {400, 401, 404, 409, 500};
  }

  /** Distinct titled statuses have distinct titles, and "Error" names
      exactly the statuses without a title of their own. */
  lemma TitlesDistinguishStatuses(s1: int, s2: int)
    ensures s1 in {400, 401, 403, 404, 409, 500} && ErrorTitle(s1) == ErrorTitle(s2) ==> s1 == s2
    ensures ErrorTitle(s1) == "Error" <==> s1 !in {400, 401, 403, 404, 409, 500}
  {
  }

  /** The anonymous object the boundary serialises. */
  datatype ErrorEnvelope = ErrorEnvelope(
    success: bool,
    error: string,
    message: string,
    detail: Option<string>,
    path: string,
    verb: string,
    timestamp: Instant)

  /** The envelope for `ex` caught while serving `req`. */
  function EnvelopeFor(ex: Exception, req: Request, isDevelopment: bool, now: Instant): (e: ErrorEnvelope)
    ensures !e.success
    ensures e.error == ErrorTitle(StatusFor(ex.kind)) && e.message == ex.message
    ensures e.detail.Some? <==> isDevelopment
    ensures isDevelopment ==> e.detail == Some(ex.stackTrace)
    ensures e.path == req.path && e.verb == req.verb
  {
    ErrorEnvelope(false, ErrorTitle(StatusFor(ex.kind)), ex.message,
                  if isDevelopment then Some(ex.stackTrace) else None,
                  req.path, req.verb, now)
  }

  /** The camel-case JSON text of an envelope; an absent detail is written as null. */
  function RenderEnvelope(e: ErrorEnvelope): (text: string)
    ensures |text| > 0 && text[0] == '{'
  {
    Serialize(Object([
      ("success", Bool(e.success)),
      ("error", Str(e.error)),
      ("message", Str(e.message)),
      ("detail", if e.detail.Some? then Str(e.detail.value) else Null),
      ("path", Str(e.path)),
      ("method", Str(e.verb)),
      ("timestamp", InstantValue(e.timestamp))]))
  }

  /** What `HandleExceptionAsync` produces for `ex`. */
  function ErrorReply(ex: Exception, req: Request, isDevelopment: bool, now: Instant): (r: Reply)
    ensures r.status == StatusFor(ex.kind)
    ensures r.contentType == Some(ErrorContentType)
    ensures r.body.Some? && |r.body.value| > 0
    ensures r.body == Some(RenderEnvelope(EnvelopeFor(ex, req, isDevelopment, now)))
  {
    Reply(StatusFor(ex.kind), Some(ErrorContentType),
          Some(RenderEnvelope(EnvelopeFor(ex, req, isDevelopment, now))))
  }

  /** `HandleExceptionAsync`: content type, then status, then the envelope. */
  method HandleException(ctx: HttpContext, ex: Exception, isDevelopment: bool, now: Instant)
    returns (thrown: Option<Exception>)
    requires ctx.Valid()
    modifies ctx, ctx.responseBody
    ensures ctx.Valid()
    ensures Produced(ctx, Replied(ErrorReply(ex, ctx.request, isDevelopment, now)), thrown)
  {
    ctx.contentType := Some(ErrorContentType);
    ctx.statusCode := StatusFor(ex.kind);
    var envelope := EnvelopeFor(ex, ctx.request, isDevelopment, now);
    thrown := ctx.responseBody.Write(RenderEnvelope(envelope));
  }

  /** The exception that comes out of the inner stages, if any: the one model
      binding raised, or the transport fault when a reply with text is written
      to a sink whose connection is gone. */
  function Caught(users: seq<User>, req: Request, sinkFailing: bool, now: Instant): (c: Option<Exception>)
    requires IdsInInt32(users)
    ensures GateReply(users, req, now).1.Raised? ==> c == Some(GateReply(users, req, now).1.exception)
    ensures GateReply(users, req, now).1.Replied? ==>
              (c.Some? <==> GateReply(users, req, now).1.reply.body.Some? && sinkFailing)
              && (c.Some? ==> c.value == TransportFault)
    ensures !sinkFailing ==> (c.Some? <==> Decide(req).Admit? && req.route.BindingFailed?)
  {
    match GateReply(users, req, now).1
    case Raised(ex) => Some(ex)
    case Replied(reply) => if reply.body.Some? && sinkFailing then Some(TransportFault) else None
  }

  /** What the whole chain answers: the inner reply when nothing was raised,
      otherwise the error envelope for the exception that was. */
  function ChainReply(users: seq<User>, req: Request, sinkFailing: bool, isDevelopment: bool, now: Instant): (r: Reply)
    requires IdsInInt32(users)
    ensures Caught(users, req, sinkFailing, now).None? ==>
              GateReply(users, req, now).1 == Replied(r)
    ensures Caught(users, req, sinkFailing, now).Some? ==>
              r.status == StatusFor(Caught(users, req, sinkFailing, now).value.kind)
              && r.contentType == Some(ErrorContentType) && r.body.Some?
  {
    match Caught(users, req, sinkFailing, now)
    case Some(ex) => ErrorReply(ex, req, isDevelopment, now)
    case None => GateReply(users, req, now).1.reply
  }

  /** The entry the boundary logs for what it caught, if anything. */
  function Unhandled(caught: Option<Exception>): seq<LogEntry>
  {
    match caught
    case Some(ex) => [UnhandledException(ex)]
    case None => []
  }

  /** The `catch` block: log the exception, then answer with its envelope. */
  method Recover(ctx: HttpContext, ex: Exception, logger: Logger, isDevelopment: bool, now: Instant)
    returns (escaped: Option<Exception>)
    requires ctx.Valid()
    modifies ctx, ctx.responseBody, logger
    ensures ctx.Valid()
    ensures ctx.requestBody.data == old(ctx.requestBody.data) && ctx.requestBody.position == old(ctx.requestBody.position)
    ensures logger.entries == old(logger.entries) + [UnhandledException(ex)]
    ensures Produced(ctx, Replied(ErrorReply(ex, ctx.request, isDevelopment, now)), escaped)
  {
    logger.Log(UnhandledException(ex));
    escaped := HandleException(ctx, ex, isDevelopment, now);
  }

  /** `InvokeAsync`. When the inner stages return normally the response is
      theirs and nothing is added; when they raise, the exception is logged
      and the envelope is produced. On a live connection it is delivered; on
      a dead one its own write raises again and leaves the boundary. */
  method Invoke(ctx: HttpContext, controller: UsersController, logger: Logger, isDevelopment: bool, now: Instant)
    returns (escaped: Option<Exception>)
    requires ctx.Valid() && controller.service.Valid()
    requires BindableFrom(ctx.request.route, ctx.requestBody.canRead, ctx.requestBody.failing)
    modifies ctx, ctx.requestBody, ctx.responseBody, controller.service, logger
    ensures ctx.Valid() && controller.service.Valid()
    ensures ctx.requestBody.data == old(ctx.requestBody.data)
    ensures ctx.requestBody.position == if Decide(ctx.request).Admit? && ReadsBody(ctx.request.route) then |ctx.requestBody.data| else 0
    ensures controller.service.users == GateReply(old(controller.service.users), ctx.request, now).0
    ensures Produced(ctx, Replied(ChainReply(old(controller.service.users), ctx.request, ctx.responseBody.failing, isDevelopment, now)), escaped)
    ensures logger.entries == old(logger.entries)
              + Trail(ctx.request,
                      Snippet(ctx.requestBody.canRead, ctx.requestBody.failing,
                              old(ctx.requestBody.data[ctx.requestBody.position..]), ctx.request.contentType),
                      GateReply(old(controller.service.users), ctx.request, now).1)
              + Unhandled(Caught(old(controller.service.users), ctx.request, ctx.responseBody.failing, now))
  {
    ghost var caught := Caught(controller.service.users, ctx.request, ctx.responseBody.failing, now);
    var thrown := RequestLogging.Invoke(ctx, controller, logger, now);
    assert thrown == caught;
    if thrown.Some? {
      escaped := Recover(ctx, thrown.value, logger, isDevelopment, now);
    } else {
      escaped := None;
    }
  }
}

=== FILE: http.dfy ===
/** The request and response context every middleware stage sees: the request
    line and routing result, the request body stream, the response status,
    content type and body sink, the exceptions stages can raise, and the log
    the stages write to. */
module Http {
  import opened Wrappers
  import opened Models

  // ---------------------------------------------------------------- exceptions

  /** The exception classes the error boundary and the controller distinguish.
      `Argument` is `ArgumentException` or any of its subclasses other than
      `ArgumentNullException`; `IO` is a failure of the transport. */
  datatype ExceptionKind =
    | KeyNotFound
    | ArgumentNull
    | Argument
    | UnauthorizedAccess
    | InvalidOperation
    | IO
    | Other

  datatype Exception = Exception(kind: ExceptionKind, message: string, stackTrace: string)

  /** `ex is ArgumentException`: `ArgumentNullException` derives from `ArgumentException`. */
  predicate IsArgumentException(k: ExceptionKind)
  {
    k == Argument || k == ArgumentNull
  }

  /** What a stream raises when the connection behind it has gone away. */
  const TransportFault := Exception(IO, "The client disconnected.", "at Stream.Write")

  // ---------------------------------------------------------------- request

  /** The controller action that routing and model binding selected, with the
      bound body and the model-state errors (an empty list means a valid model). */
  datatype Action =
    | ListUsers
    | FetchUser(id: int)
    | AddUser(user: User, modelErrors: seq<string>)
    | ChangeUser(id: int, user: User, modelErrors: seq<string>)
    | RemoveUser(id: int)

  /** What routing and model binding made of the request: no endpoint
      matched, an action was selected with its bound model, or binding the
      model raised before any action ran (for instance because reading the
      request body failed). */
  datatype Route =
    | Unmatched
    | Matched(action: Action)
    | BindingFailed(fault: Exception)

  /** Whether the selected action's model is bound from the request body
      (`[FromBody]`): creation and update. Binding reads the body whether or
      not the model then validates. */
  predicate ReadsBody(route: Route)
  {
    route.Matched? && (route.action.AddUser? || route.action.ChangeUser?)
  }

  /** A route that binds a body was bound from a body that could be read: a
      body that cannot be read makes binding raise, and the route then records
      that as `BindingFailed`. */
  predicate BindableFrom(route: Route, canRead: bool, failing: bool)
  {
    ReadsBody(route) ==> canRead && !failing
  }

  /** The parts of an HTTP request the pipeline reads. `authorization` is the
      value of the `Authorization` header if the header is present. */
  datatype Request = Request(
    verb: string,
    path: string,
    queryString: string,
    contentType: Option<string>,
    authorization: Option<string>,
    route: Route)

  /** What a stage produces on the response: its status code, its content type
      and the text it writes (None when it writes nothing). */
  datatype Reply = Reply(status: int, contentType: Option<string>, body: Option<string>)

  /** How a stage ends: it produced a reply, or it raised before writing anything. */
  datatype Outcome = Replied(reply: Reply) | Raised(exception: Exception)

  /** The characters a reply writes. */
  function Written(r: Reply): string
  {
    if r.body.Some? then r.body.value else []
  }

  // ---------------------------------------------------------------- streams

  /** The content after writing `s` at `pos` into `d` (a stream write overwrites
      from the position and extends the stream when it passes the end). */
  function Overwrite(d: string, pos: nat, s: string): (r: string)
    requires pos <= |d|
    ensures |r| == if pos + |s| <= |d| then |d| else pos + |s|
    ensures r[..pos] == d[..pos] && r[pos..pos + |s|] == s
    ensures pos + |s| < |d| ==> r[pos + |s|..] == d[pos + |s|..]
    ensures pos == |d| ==> r == d + s
  {
    d[..pos] + s + (if pos + |s| < |d| then d[pos + |s|..] else [])
  }

  /** A byte stream: the request body, the response sink towards the client,
      or an in-memory buffer. `failing` streams stand for an aborted
      connection: every read and write raises an I/O exception. */
  class Stream {
    var data: string
    var position: nat
    const canRead: bool
    const failing: bool

    ghost predicate Valid()
      reads this
    {
      position <= |data|
    }

    constructor (content: string, canRead: bool, failing: bool)
      ensures Valid()
      ensures data == content && position == 0
      ensures this.canRead == canRead && this.failing == failing
    {
      data := content;
      position := 0;
      this.canRead := canRead;
      this.failing := failing;
    }

    /** `new MemoryStream()` */
    constructor Memory()
      ensures Valid()
      ensures data == [] && position == 0 && canRead && !failing
    {
      data := [];
      position := 0;
      canRead := true;
      failing := false;
    }

    method Write(s: string) returns (err: Option<Exception>)
      requires Valid()
      modifies this
      ensures Valid()
      ensures failing ==> err == Some(TransportFault) && data == old(data) && position == old(position)
      ensures !failing ==> err == None && data == Overwrite(old(data), old(position), s)
                           && position == old(position) + |s|
    {
      if failing {
        err := Some(TransportFault);
      } else {
        data := Overwrite(data, position, s);
        position := position + |s|;
        err := None;
      }
    }

    /** `Seek(0, SeekOrigin.Begin)`, or `Position = 0` */
    method Rewind()
      requires Valid()
      modifies this
      ensures Valid() && data == old(data) && position == 0
    {
      position := 0;
    }

    /** Reads everything from the position to the end. */
    method ReadToEnd() returns (r: Result<string, Exception>)
      requires Valid()
      modifies this
      ensures Valid() && data == old(data)
      ensures (failing || !canRead) ==> r == Failure(TransportFault) && position == old(position)
      ensures !failing && canRead ==> r == Success(old(data[position..])) && position == |data|
    {
      if failing || !canRead {
        r := Failure(TransportFault);
      } else {
        r := Success(data[position..]);
        position := |data|;
      }
    }

    /** `CopyTo(dest)`: reads from the position to the end and writes what it
        read to `dest`; when nothing is left to read, nothing is written. */
    method CopyTo(dest: Stream) returns (err: Option<Exception>)
      requires Valid() && dest.Valid() && dest != this
      requires !failing && canRead
      modifies this, dest
      ensures Valid() && dest.Valid()
      ensures data == old(data) && position == |data|
      ensures old(position) == |data| ==> err == None && dest.data == old(dest.data) && dest.position == old(dest.position)
      ensures old(position) < |data| && dest.failing ==>
                err == Some(TransportFault) && dest.data == old(dest.data) && dest.position == old(dest.position)
      ensures old(position) < |data| && !dest.failing ==>
                err == None && dest.data == Overwrite(old(dest.data), old(dest.position), old(data[position..]))
                && dest.position == old(dest.position) + |old(data[position..])|
    {
      var chunk := data[position..];
      position := |data|;
      if chunk == [] {
        err := None;
      } else {
        err := dest.Write(chunk);
      }
    }
  }

  // ---------------------------------------------------------------- context

  /** `HttpContext`: the request, its body stream, and the mutable response. */
  class HttpContext {
    const request: Request
    const requestBody: Stream
    var statusCode: int
    var contentType: Option<string>
    var responseBody: Stream

    ghost predicate Valid()
      reads this, requestBody, responseBody
    {
      requestBody != responseBody && requestBody.Valid() && responseBody.Valid()
    }

    /** A fresh context: status 200 and no content type until a stage sets them. */
    constructor (request: Request, requestBody: Stream, responseBody: Stream)
      requires requestBody != responseBody && requestBody.Valid() && responseBody.Valid()
      ensures Valid()
      ensures this.request == request && this.requestBody == requestBody && this.responseBody == responseBody
      ensures statusCode == 200 && contentType == None
    {
      this.request := request;
      this.requestBody := requestBody;
      this.responseBody := responseBody;
      statusCode := 200;
      contentType := None;
    }
  }

  /** The response after a stage has ended with `outcome`. The sink is the
      one it found. A stage that raised changed nothing and `thrown` is its
      exception. A stage that replied set the reply's status and content type
      (an unset content type is left alone) and wrote the reply's text at the
      sink's position, unless the sink fails, in which case nothing is written
      and the write raises. A reply with no text writes nothing and cannot fail. */
  twostate predicate Produced(ctx: HttpContext, new outcome: Outcome, new thrown: Option<Exception>)
    reads ctx, ctx.responseBody
  {
    var sink := ctx.responseBody;
    && sink == old(ctx.responseBody)
    && old(sink.position) <= |old(sink.data)|
    && match outcome
       case Raised(ex) =>
         && ctx.statusCode == old(ctx.statusCode)
         && ctx.contentType == old(ctx.contentType)
         && sink.data == old(sink.data) && sink.position == old(sink.position)
         && thrown == Some(ex)
       case Replied(reply) =>
         && ctx.statusCode == reply.status
         && ctx.contentType == (if reply.contentType.Some? then reply.contentType else old(ctx.contentType))
         && (if reply.body.None? || sink.failing
             then sink.data == old(sink.data) && sink.position == old(sink.position)
             else sink.data == Overwrite(old(sink.data), old(sink.position), reply.body.value)
                  && sink.position == old(sink.position) + |reply.body.value|)
         && thrown == (if reply.body.Some? && sink.failing then Some(TransportFault) else None)
  }

  // ---------------------------------------------------------------- logging

  /** The information the stages hand to `ILogger`, one entry per call. */
  datatype LogEntry =
    | IncomingRequest(verb: string, path: string, queryString: string)
    | RequestBodyText(text: string)
    | ResponseStatus(status: int)
    | ResponseBodyText(text: string)
    | UnhandledException(exception: Exception)

  /** The shared log sink; stages only ever append to it. */
  class Logger {
    var entries: seq<LogEntry>

    constructor ()
      ensures entries == []
    {
      entries := [];
    }

    method Log(e: LogEntry)
      modifies this
      ensures entries == old(entries) + [e]
    {
      entries := entries + [e];
    }
  }
}

=== FILE: json.dfy ===
/** The JSON the API writes: the values its response objects are made of,
    and their compact text as the framework's serializer writes it with the
    default options (no indentation, members in declaration order, camel-case
    names chosen by the caller). */
module Json {
  import opened Text

  datatype Value =
    | Null
    | Bool(b: bool)
    | Number(n: int)
    | Str(s: string)
    | Array(items: seq<Value>)
    | Object(members: seq<(string, Value)>)

  /** The compact text of `v`. */
  function Serialize(v: Value): (text: string)
    ensures |text| > 0
    ensures v.Object? ==> text[0] == '{' && text[|text| - 1] == '}'
    ensures v.Array? ==> text[0] == '[' && text[|text| - 1] == ']'
    ensures v.Str? ==> text[0] == '"' && text[|text| - 1] == '"'
    decreases v, 1
  {
    match v
    case Null => "null"
    case Bool(b) => if b then "true" else "false"
    case Number(n) => IntToString(n)
    case Str(s) => Quote(s)
    case Array(items) => "[" + SerializeItems(items) + "]"
    case Object(members) => "{" + SerializeMembers(members) + "}"
  }

  /** Array elements, separated by commas. */
  function SerializeItems(items: seq<Value>): string
    decreases items, 0
  {
    if items == [] then ""
    else if |items| == 1 then Serialize(items[0])
    else Serialize(items[0]) + "," + SerializeItems(items[1..])
  }

  /** Object members as `"name":value`, separated by commas. */
  function SerializeMembers(members: seq<(string, Value)>): string
    decreases members, 0
  {
    if members == [] then ""
    else
      var (name, value) := members[0];
      assert members[0] in members && value < members[0];
      var member := Quote(name) + ":" + Serialize(value);
      if |members| == 1 then member else member + "," + SerializeMembers(members[1..])
  }
}

=== FILE: models.dfy ===
/** The `User` record the service stores and the controller returns.
    Its fields are those the service and controller read and assign. */
module Models {
  import opened Wrappers

  /** A clock reading (`DateTime`), kept opaque: only equality is used. */
  datatype Instant = Instant(ticks: int)

  /** `AddDays`, used only to seed the creation dates of the initial records. */
  function AddDays(t: Instant, days: int): (r: Instant)
    ensures days < 0 ==> r.ticks < t.ticks
  {
    Instant(t.ticks + days * 864_000_000_000)
  }

  datatype User = User(
    id: int,
    name: string,
    email: string,
    department: string,
    createdDate: Instant,
    updatedDate: Option<Instant>,
    isActive: bool)
}

=== FILE: pipeline.dfy ===
/** The whole chain of one request, in the order the host installs it: the
    error boundary, the request logger, the authentication gate, then the
    controller over the shared user store. */
module Pipeline {
  import opened Wrappers
  import opened Text
  import opened Models
  import opened Http
  import opened UserStore
  import opened UsersController
  import opened Authentication
  import opened RequestLogging
  import opened ErrorHandling

  /** Serves one request: `sink` is the connection's response stream and
      `requestBody` its request stream. Returns the final status and content
      type, and the exception that leaves the chain, if any. */
  method ProcessRequest(request: Request, requestBody: Stream, sink: Stream, service: UserService,
                        logger: Logger, isDevelopment: bool, now: Instant)
    returns (status: int, contentType: Option<string>, escaped: Option<Exception>)
    requires requestBody != sink && requestBody.Valid() && sink.Valid() && service.Valid()
    requires BindableFrom(request.route, requestBody.canRead, requestBody.failing)
    modifies requestBody, sink, service, logger
    ensures sink.Valid() && service.Valid()
    ensures service.users == GateReply(old(service.users), request, now).0
    ensures var reply := ChainReply(old(service.users), request, sink.failing, isDevelopment, now);
            && status == reply.status
            && contentType == reply.contentType
            && (!sink.failing ==>
                  escaped == None && sink.data == Overwrite(old(sink.data), old(sink.position), Written(reply)))
            && (sink.failing ==> sink.data == old(sink.data)
                                 && (escaped.Some? <==> Caught(old(service.users), request, true, now).Some?))
    ensures requestBody.data == old(requestBody.data)
    ensures requestBody.position == if Decide(request).Admit? && ReadsBody(request.route) then |requestBody.data| else 0
    ensures logger.entries == old(logger.entries)
              + Trail(request,
                      Snippet(requestBody.canRead, requestBody.failing,
                              old(requestBody.data[requestBody.position..]), request.contentType),
                      GateReply(old(service.users), request, now).1)
              + (match Caught(old(service.users), request, sink.failing, now)
                 case Some(ex) => [UnhandledException(ex)]
                 case None => [])
  {
    var ctx := new HttpContext(request, requestBody, sink);
    var controller := new UsersController(service);
    escaped := ErrorHandling.Invoke(ctx, controller, logger, isDevelopment, now);
    status := ctx.statusCode;
    contentType := ctx.contentType;
  }

  /** On a live connection the error boundary answers only when model
      binding raised; otherwise the reply is the gate's or the controller's,
      and it is delivered whole. */
  lemma BoundaryIdleOnLiveConnection(users: seq<User>, req: Request, isDevelopment: bool, now: Instant)
    requires IdsInInt32(users)
    requires !req.route.BindingFailed?
    ensures Caught(users, req, false, now).None?
    ensures GateReply(users, req, now).1 == Replied(ChainReply(users, req, false, isDevelopment, now))
  {
  }

  /** When binding the action's model raises (say, reading the request body
      fails), nothing is written and the store is untouched; the logger skips
      the response entries and puts the sink back; the boundary logs the
      exception and answers with its envelope, whose status follows the
      exception's class. */
  lemma BindingFaultAnswer(users: seq<User>, req: Request, fault: Exception, snippet: string,
                           sinkFailing: bool, isDevelopment: bool, now: Instant)
    requires IdsInInt32(users)
    requires Decide(req).Admit? && req.route == BindingFailed(fault)
    ensures GateReply(users, req, now) == (users, Raised(fault))
    ensures Caught(users, req, sinkFailing, now) == Some(fault)
    ensures ChainReply(users, req, sinkFailing, isDevelopment, now) == ErrorReply(fault, req, isDevelopment, now)
    ensures ChainReply(users, req, sinkFailing, isDevelopment, now).status == StatusFor(fault.kind)
    ensures Trail(req, snippet, GateReply(users, req, now).1)
            == [IncomingRequest(req.verb, req.path, req.queryString)]
               + (if snippet == [] then [] else [RequestBodyText(snippet)])
  {
  }

  /** A refused request never reaches the store, is answered 401 with a
      plain-text message, and is logged like any other. */
  lemma RefusedRequestsEndAtTheGate(users: seq<User>, req: Request, snippet: string, isDevelopment: bool, now: Instant)
    requires IdsInInt32(users)
    requires Decide(req).Reject?
    ensures GateReply(users, req, now).0 == users
    ensures ChainReply(users, req, false, isDevelopment, now) == Reply(401, None, Some(Decide(req).message))
    ensures ResponseStatus(401) in Trail(req, snippet, GateReply(users, req, now).1)
    ensures Caught(users, req, false, now).None?
  {
    RejectedRequestsAreLogged(users, req, snippet, now);
    var t := Trail(req, snippet, GateReply(users, req, now).1);
    assert t[|t| - 2] == ResponseStatus(401);
  }

  /** When the connection is gone before a reply with text is written, the
      boundary's answer is always the 500 envelope titled "Internal Server
      Error", and its stack trace appears only in development. */
  lemma DeadConnectionAnswer(users: seq<User>, req: Request, isDevelopment: bool, now: Instant)
    requires IdsInInt32(users)
    requires GateReply(users, req, now).1.Replied? && GateReply(users, req, now).1.reply.body.Some?
    ensures Caught(users, req, true, now) == Some(TransportFault)
    ensures ChainReply(users, req, true, isDevelopment, now) == ErrorReply(TransportFault, req, isDevelopment, now)
    ensures EnvelopeFor(TransportFault, req, isDevelopment, now).error == "Internal Server Error"
    ensures EnvelopeFor(TransportFault, req, isDevelopment, now).detail.Some? <==> isDevelopment
  {
  }

  /** The same duplicate-email exception gets a different status depending on
      who catches it: 409 from the controller, 400 from the boundary. The
      controller catches it first, so clients see 409. */
  lemma DuplicateEmailStatusByCatcher(email: string)
    ensures CreateResult(Failure(DuplicateEmail(email))).status == 409
    ensures UpdateResult(0, Failure(DuplicateEmail(email))).status == 409
    ensures StatusFor(DuplicateEmail(email).kind) == 400
  {
  }

  /** An `ArgumentNullException` is a conflict to the controller but "not
      found" to the boundary, which tests it before `ArgumentException`. */
  lemma ArgumentNullStatusByCatcher(message: string, stackTrace: string)
    ensures CreateResult(Failure(Exception(ArgumentNull, message, stackTrace))).status == 409
    ensures StatusFor(ArgumentNull) == 404
    ensures StatusFor(Argument) == 400
  {
  }

  /** End to end: an authorised create whose email is already registered (in
      any letter case, even on a soft-deleted record) leaves the store as it
      was and is answered 409 with the duplicate message. */
  lemma AuthorisedDuplicateCreate(users: seq<User>, req: Request, user: User, i: nat, n: nat, now: Instant)
    requires IdsInInt32(users)
    requires Guarded(req) && req.authorization == Some(Repeat(BearerScheme, n) + ExpectedToken)
    requires req.route == Matched(AddUser(user, []))
    requires i < |users| && EqualsIgnoreCase(users[i].email, user.email)
    ensures GateReply(users, req, now).0 == users
    ensures GateReply(users, req, now).1.Replied?
    ensures GateReply(users, req, now).1.reply.status == 409
    ensures GateReply(users, req, now).1.reply.body
            == Some(RenderBody(Failed("Conflict", "Email '" + user.email + "' is already registered")))
  {
    RepeatedSchemeAccepted(n);
    DuplicateCreateIsConflict(users, user, now, i);
  }
}

=== FILE: request_logging.dfy ===
/** The request logger: logs the request line and a bounded snippet of the
    request body, rewinds the request body for the stages after it, runs them
    against an in-memory response buffer, logs the status and the whole
    response text, copies the buffer to the real sink, and always puts the
    real sink back. */
module RequestLogging {
  import opened Wrappers
  import opened Text
  import opened Models
  import opened Http
  import opened UserStore
  import opened UsersController
  import opened Authentication

  /** Request bodies longer than this are cut for the log. */
  const SnippetLimit := 1000
  const Ellipsis := "..."

  /** The content types whose bodies are logged: the header value contains
      one of the three markers anywhere, compared case-sensitively. */
  predicate Loggable(contentType: Option<string>)
    ensures Loggable(contentType) ==> contentType.Some? && |contentType.value| >= 5
  {
    contentType.Some? &&
    (Contains(contentType.value, "application/json")
     || Contains(contentType.value, "application/xml")
     || Contains(contentType.value, "text/"))
  }

  /** The logged form of a body: its first 1000 characters and "..." when it
      is longer than that, otherwise the body itself. */
  function Truncate(body: string): (r: string)
    ensures |body| <= SnippetLimit ==> r == body
    ensures |body| > SnippetLimit ==>
              |r| == SnippetLimit + |Ellipsis| && r[..SnippetLimit] == body[..SnippetLimit]
              && r[SnippetLimit..] == Ellipsis
    ensures |r| <= SnippetLimit + |Ellipsis|
  {
    if |body| > SnippetLimit then body[..SnippetLimit] + Ellipsis else body
  }

  /** The snippet agrees with the body on every position it keeps. */
  lemma TruncateKeepsPrefix(body: string)
    ensures var r := Truncate(body);
            var kept := if |body| > SnippetLimit then SnippetLimit else |body|;
            kept <= |r| && r[..kept] == body[..kept]
  {
  }

  /** Cutting a snippet again changes nothing. */
  lemma TruncateIdempotent(body: string)
    ensures Truncate(Truncate(body)) == Truncate(body)
  {
    if |body| > SnippetLimit {
      var r := Truncate(body);
      assert r[..SnippetLimit] + Ellipsis == r;
    }
  }

  /** Different long bodies can give the same log line: everything after the
      first 1000 characters is lost. */
  lemma TruncateLosesTail(head: string, tail1: string, tail2: string)
    requires |head| == SnippetLimit && |tail1| > 0 && |tail2| > 0
    ensures Truncate(head + tail1) == Truncate(head + tail2) == head + Ellipsis
  {
    assert (head + tail1)[..SnippetLimit] == head;
    assert (head + tail2)[..SnippetLimit] == head;
  }

  /** A marker placed anywhere in the header value is found: the test is
      containment, not a prefix test. */
  lemma {:induction false} ContainsAnywhere(before: string, part: string, after: string)
    ensures Contains(before + part + after, part)
    decreases |before|
  {
    var s := before + part + after;
    if before == [] {
      assert s[..|part|] == part;
    } else {
      assert s[1..] == before[1..] + part + after;
      ContainsAnywhere(before[1..], part, after);
    }
  }

  lemma LoggableAnywhere(before: string, after: string)
    ensures Loggable(Some(before + "application/json" + after))
    ensures Loggable(Some(before + "application/xml" + after))
    ensures Loggable(Some(before + "text/" + after))
  {
    ContainsAnywhere(before, "application/json", after);
    ContainsAnywhere(before, "application/xml", after);
    ContainsAnywhere(before, "text/", after);
  }

  /** What `ReadRequestBody` returns for a body stream that is present:
      nothing for an unreadable stream, for a content type that is not
      logged, or when reading raises; otherwise the rest of the stream,
      truncated. */
  function Snippet(canRead: bool, failing: bool, remaining: string, contentType: Option<string>): (r: string)
    ensures |r| <= SnippetLimit + |Ellipsis|
    ensures r != [] ==> canRead && !failing && Loggable(contentType)
    ensures canRead && !failing && Loggable(contentType) && |remaining| <= SnippetLimit ==> r == remaining
    ensures canRead && !failing && Loggable(contentType) ==> r == Truncate(remaining)
    ensures !(canRead && !failing && Loggable(contentType)) ==> r == []
  {
    if !canRead then []
    else if Loggable(contentType) then (if failing then [] else Truncate(remaining))
    else []
  }

  /** `ReadRequestBody`: reads the rest of the body when its content type is
      logged; every failure is swallowed and yields the empty string. */
  method ReadRequestBody(body: Stream?, contentType: Option<string>) returns (snippet: string)
    requires body != null ==> body.Valid()
    modifies body
    ensures body == null ==> snippet == []
    ensures body != null ==>
              body.Valid() && body.data == old(body.data)
              && snippet == Snippet(body.canRead, body.failing, old(body.data[body.position..]), contentType)
              && body.position == (if body.canRead && !body.failing && Loggable(contentType)
                                   then |body.data| else old(body.position))
  {
    if body == null || !body.canRead {
      return [];
    }
    if Loggable(contentType) {
      var read := body.ReadToEnd();
      match read {
        case Success(text) => return Truncate(text);
        case Failure(_) => return [];
      }
    }
    return [];
  }

  /** The entries the logger writes about the response: the status and the
      whole response text when the inner stages replied, nothing when they raised. */
  function ResponseEntries(outcome: Outcome): seq<LogEntry>
  {
    match outcome
    case Replied(reply) => [ResponseStatus(reply.status), ResponseBodyText(Written(reply))]
    case Raised(_) => []
  }

  /** The entries the logger writes for a request whose body snippet is
      `snippet` and whose inner stages ended with `outcome`: the request line,
      the snippet when it is not empty, then the status and the whole response
      text, unless the inner stages raised. */
  function Trail(req: Request, snippet: string, outcome: Outcome): (t: seq<LogEntry>)
    ensures |t| == (if snippet == [] then 1 else 2) + (if outcome.Replied? then 2 else 0)
    ensures t[0] == IncomingRequest(req.verb, req.path, req.queryString)
    ensures snippet != [] ==> t[1] == RequestBodyText(snippet)
    ensures outcome.Replied? ==>
              t[|t| - 1] == ResponseBodyText(Written(outcome.reply)) && t[|t| - 2] == ResponseStatus(outcome.reply.status)
    ensures outcome.Raised? ==> forall e :: e in t ==> !e.ResponseStatus? && !e.ResponseBodyText?
  {
    [IncomingRequest(req.verb, req.path, req.queryString)]
      + (if snippet == [] then [] else [RequestBodyText(snippet)])
      + ResponseEntries(outcome)
  }

  /** A refused request is still logged, with its 401 status and message. */
  lemma RejectedRequestsAreLogged(users: seq<User>, req: Request, snippet: string, now: Instant)
    requires IdsInInt32(users)
    requires Decide(req).Reject?
    ensures GateReply(users, req, now).1.Replied?
    ensures var t := Trail(req, snippet, GateReply(users, req, now).1);
            t[|t| - 2] == ResponseStatus(401)
            && t[|t| - 1] == ResponseBodyText(Decide(req).message)
  {
  }

  /** The response text is logged whole, however long it is. */
  lemma ResponseLoggedInFull(req: Request, snippet: string, reply: Reply)
    requires reply.body.Some?
    ensures ResponseBodyText(reply.body.value) in Trail(req, snippet, Replied(reply))
  {
    var t := Trail(req, snippet, Replied(reply));
    assert t[|t| - 1] == ResponseBodyText(reply.body.value);
  }

  /** The request half of `InvokeAsync`: logs the request line and the body
      snippet, and leaves the request body at position 0 for the stages after. */
  method LogRequest(ctx: HttpContext, logger: Logger) returns (snippet: string)
    requires ctx.Valid()
    modifies ctx.requestBody, logger
    ensures ctx.Valid()
    ensures ctx.requestBody.data == old(ctx.requestBody.data) && ctx.requestBody.position == 0
    ensures snippet == Snippet(ctx.requestBody.canRead, ctx.requestBody.failing,
                               old(ctx.requestBody.data[ctx.requestBody.position..]), ctx.request.contentType)
    ensures logger.entries == old(logger.entries)
              + [IncomingRequest(ctx.request.verb, ctx.request.path, ctx.request.queryString)]
              + (if snippet == [] then [] else [RequestBodyText(snippet)])
  {
    var request := ctx.request;
    logger.Log(IncomingRequest(request.verb, request.path, request.queryString));
    snippet := ReadRequestBody(ctx.requestBody, request.contentType);
    if snippet != [] {
      logger.Log(RequestBodyText(snippet));
    }
    ctx.requestBody.Rewind();
  }

  /** What the logger does once the stages after it returned: log the status
      and the buffer's whole text, then copy the buffer to the real sink. */
  method Deliver(buffer: Stream, original: Stream, status: int, logger: Logger) returns (thrown: Option<Exception>)
    requires buffer.Valid() && original.Valid() && buffer != original
    requires buffer.canRead && !buffer.failing
    modifies buffer, original, logger
    ensures original.Valid()
    ensures logger.entries == old(logger.entries) + [ResponseStatus(status), ResponseBodyText(old(buffer.data))]
    ensures old(buffer.data) == [] || original.failing ==>
              original.data == old(original.data) && original.position == old(original.position)
    ensures old(buffer.data) != [] && !original.failing ==>
              original.data == Overwrite(old(original.data), old(original.position), old(buffer.data))
              && original.position == old(original.position) + |old(buffer.data)|
    ensures thrown == if old(buffer.data) != [] && original.failing then Some(TransportFault) else None
  {
    logger.Log(ResponseStatus(status));
    buffer.Rewind();
    var read := buffer.ReadToEnd();
    logger.Log(ResponseBodyText(read.value));
    buffer.Rewind();
    thrown := buffer.CopyTo(original);
  }

  /** The response half of `InvokeAsync`: the stages after run against a
      fresh memory buffer; when they return normally the status and the
      buffer's text are logged and the buffer is copied to the real sink; when
      they raise, nothing is logged or copied and the exception goes on; in
      every case the real sink is put back. */
  method CaptureResponse(ctx: HttpContext, controller: UsersController, logger: Logger, now: Instant)
    returns (thrown: Option<Exception>)
    requires ctx.Valid() && controller.service.Valid()
    requires ctx.requestBody.position == 0
    requires BindableFrom(ctx.request.route, ctx.requestBody.canRead, ctx.requestBody.failing)
    modifies ctx, ctx.requestBody, ctx.responseBody, controller.service, logger
    ensures ctx.Valid() && controller.service.Valid()
    ensures ctx.requestBody.data == old(ctx.requestBody.data)
    ensures ctx.requestBody.position == if Decide(ctx.request).Admit? && ReadsBody(ctx.request.route) then |ctx.requestBody.data| else 0
    ensures controller.service.users == GateReply(old(controller.service.users), ctx.request, now).0
    ensures Produced(ctx, GateReply(old(controller.service.users), ctx.request, now).1, thrown)
    ensures logger.entries == old(logger.entries)
              + ResponseEntries(GateReply(old(controller.service.users), ctx.request, now).1)
  {
    ghost var outcome := GateReply(controller.service.users, ctx.request, now).1;
    var original := ctx.responseBody;
    ghost var originalData, originalPosition := original.data, original.position;
    var buffer := new Stream.Memory();
    ctx.responseBody := buffer;

    thrown := Authentication.Invoke(ctx, controller, now);
    assert original.data == originalData && original.position == originalPosition;
    if thrown.None? {
      assert outcome.Replied? && ctx.statusCode == outcome.reply.status;
      assert buffer.data == Written(outcome.reply);
      thrown := Deliver(buffer, original, ctx.statusCode, logger);
    } else {
      assert outcome.Raised? && thrown == Some(outcome.exception);
    }
    ctx.responseBody := original;
  }

  /** `InvokeAsync`. */
  method Invoke(ctx: HttpContext, controller: UsersController, logger: Logger, now: Instant)
    returns (thrown: Option<Exception>)
    requires ctx.Valid() && controller.service.Valid()
    requires BindableFrom(ctx.request.route, ctx.requestBody.canRead, ctx.requestBody.failing)
    modifies ctx, ctx.requestBody, ctx.responseBody, controller.service, logger
    ensures ctx.Valid() && controller.service.Valid()
    ensures ctx.requestBody.data == old(ctx.requestBody.data)
    ensures ctx.requestBody.position == if Decide(ctx.request).Admit? && ReadsBody(ctx.request.route) then |ctx.requestBody.data| else 0
    ensures controller.service.users == GateReply(old(controller.service.users), ctx.request, now).0
    ensures Produced(ctx, GateReply(old(controller.service.users), ctx.request, now).1, thrown)
    ensures logger.entries == old(logger.entries)
              + Trail(ctx.request,
                      Snippet(ctx.requestBody.canRead, ctx.requestBody.failing,
                              old(ctx.requestBody.data[ctx.requestBody.position..]), ctx.request.contentType),
                      GateReply(old(controller.service.users), ctx.request, now).1)
  {
    var snippet := LogRequest(ctx, logger);
    thrown := CaptureResponse(ctx, controller, logger, now);
  }
}

=== FILE: text.dfy ===
/** The .NET string operations the core relies on, on `seq<char>`:
    ordinal and ordinal-ignore-case comparison, prefix and substring tests,
    `String.Replace(old, "")`, and decimal formatting of integers. */
module Text {

  /** Upper-case mapping used by ordinal-ignore-case comparison, restricted to ASCII letters. */
  function Upper(c: char): (u: char)
    ensures 'a' <= c <= 'z' ==> 'A' <= u <= 'Z' && u as int + 32 == c as int
    ensures !('a' <= c <= 'z') ==> u == c
  {
    if 'a' <= c <= 'z' then (c as int - 32) as char else c
  }

  /** `a.Equals(b, StringComparison.OrdinalIgnoreCase)` */
  predicate EqualsIgnoreCase(a: string, b: string)
  {
    |a| == |b| && forall i :: 0 <= i < |a| ==> Upper(a[i]) == Upper(b[i])
  }

  /** Ordinal prefix test. */
  predicate StartsWith(s: string, prefix: string)
  {
    |prefix| <= |s| && s[..|prefix|] == prefix
  }

  /** `s.StartsWith(prefix, StringComparison.OrdinalIgnoreCase)` */
  predicate StartsWithIgnoreCase(s: string, prefix: string)
  {
    |prefix| <= |s| && EqualsIgnoreCase(s[..|prefix|], prefix)
  }

  /** `s.Contains(part)`: ordinal (case-sensitive) substring test. */
  predicate Contains(s: string, part: string)
    ensures Contains(s, part) ==> |part| <= |s|
    decreases |s|
  {
    StartsWith(s, part) || (|s| > 0 && Contains(s[1..], part))
  }

  /** `s.Replace(pattern, "")`: every non-overlapping occurrence of `pattern`,
      found scanning left to right, is removed; the result is not rescanned.
      The text shrinks exactly when it holds an occurrence. */
  function RemoveAll(s: string, pattern: string): (r: string)
    requires |pattern| > 0
    ensures |r| <= |s|
    ensures Contains(s, pattern) ==> |r| < |s|
    ensures !Contains(s, pattern) ==> r == s
    decreases |s|
  {
    if |s| < |pattern| then s
    else if s[..|pattern|] == pattern then RemoveAll(s[|pattern|..], pattern)
    else [s[0]] + RemoveAll(s[1..], pattern)
  }

  /** A text whose first character does not start the pattern keeps that
      character in front. */
  lemma RemoveAllSkipsFirst(s: string, pattern: string)
    requires |pattern| > 0 && |s| > 0 && s[0] != pattern[0]
    ensures RemoveAll(s, pattern) == [s[0]] + RemoveAll(s[1..], pattern)
  {
    if |s| >= |pattern| {
      assert s[..|pattern|][0] == s[0];
    } else {
      assert RemoveAll(s[1..], pattern) == s[1..];
    }
  }

  /** A prefix that never holds the pattern's first character passes through
      unchanged: occurrences are removed wherever they stand, not only at the front. */
  lemma {:induction false} RemoveAllKeepsPrefix(x: string, y: string, pattern: string)
    requires |pattern| > 0
    requires forall i :: 0 <= i < |x| ==> x[i] != pattern[0]
    ensures RemoveAll(x + y, pattern) == x + RemoveAll(y, pattern)
    decreases |x|
  {
    if x != [] {
      var s := x + y;
      assert s[0] == x[0] && s[1..] == x[1..] + y;
      RemoveAllSkipsFirst(s, pattern);
      RemoveAllKeepsPrefix(x[1..], y, pattern);
      calc {
        RemoveAll(s, pattern);
        [x[0]] + RemoveAll(x[1..] + y, pattern);
        [x[0]] + (x[1..] + RemoveAll(y, pattern));
        { assert x == [x[0]] + x[1..]; }
        x + RemoveAll(y, pattern);
      }
    } else {
      assert x + y == y;
    }
  }

  /** `n` copies of `s`, concatenated. */
  function Repeat(s: string, n: nat): (r: string)
    ensures |r| == n * |s|
    ensures n > 0 ==> r[..|s|] == s
    ensures forall i :: 0 <= i < |r| - |s| ==> r[i + |s|] == r[i]
  {
    if n == 0 then [] else
      var rest := Repeat(s, n - 1);
      var r := s + rest;
      forall i | 0 <= i < |rest|
        ensures r[i + |s|] == r[i]
      {
        if i >= |s| {
          assert rest[i - |s| + |s|] == rest[i - |s|];
        } else {
          assert rest[..|s|][i] == s[i];
        }
      }
      r
  }

  /** An occurrence at the front is dropped and the scan goes on after it. */
  lemma RemoveAllAtOccurrence(pattern: string, tail: string)
    requires |pattern| > 0
    ensures RemoveAll(pattern + tail, pattern) == RemoveAll(tail, pattern)
  {
    var s := pattern + tail;
    assert s[..|pattern|] == pattern;
    assert s[|pattern|..] == tail;
  }

  /** Any number of leading copies of the pattern disappear. */
  lemma {:induction false} RemoveAllLeadingCopies(pattern: string, n: nat, rest: string)
    requires |pattern| > 0
    ensures RemoveAll(Repeat(pattern, n) + rest, pattern) == RemoveAll(rest, pattern)
  {
    if n > 0 {
      var tail := Repeat(pattern, n - 1) + rest;
      assert Repeat(pattern, n) + rest == pattern + tail;
      RemoveAllAtOccurrence(pattern, tail);
      RemoveAllLeadingCopies(pattern, n - 1, rest);
    } else {
      assert Repeat(pattern, n) + rest == rest;
    }
  }


  /** The number a string of decimal digits denotes, read by Horner's rule. */
  ghost function DecimalValue(s: string): int
    decreases |s|
  {
    if s == [] then 0
    else DecimalValue(s[..|s| - 1]) * 10 + (s[|s| - 1] as int - '0' as int)
  }

  /** The number an optionally signed string of decimal digits denotes. */
  ghost function SignedValue(s: string): int
  {
    if |s| > 0 && s[0] == '-' then -DecimalValue(s[1..]) else DecimalValue(s)
  }

  /** A canonical decimal numeral: digits only, and no leading zero unless
      it is the numeral "0" itself. */
  ghost predicate IsDecimal(s: string)
  {
    |s| > 0 && (forall i :: 0 <= i < |s| ==> '0' <= s[i] <= '9') && (s[0] == '0' ==> |s| == 1)
  }

  /** A canonical signed numeral: a canonical decimal, or a minus sign
      followed by a canonical decimal other than "0". */
  ghost predicate IsSignedDecimal(s: string)
  {
    |s| > 0 && if s[0] == '-' then IsDecimal(s[1..]) && s[1] != '0' else IsDecimal(s)
  }

  /** Decimal digits of a natural number, most significant first. */
  function NatToString(n: nat): (r: string)
    ensures |r| > 0
    ensures forall i :: 0 <= i < |r| ==> '0' <= r[i] <= '9'
    ensures r[0] == '0' ==> |r| == 1
    ensures r[0] == '0' <==> n == 0
    ensures DecimalValue(r) == n
  {
    if n < 10 then
      var r := [('0' as int + n) as char];
      assert r[..0] == [];
      r
    else
      var front := NatToString(n / 10);
      var r := front + [('0' as int + n % 10) as char];
      assert r[..|r| - 1] == front;
      r
  }

  /** `n.ToString()` for an integer, with a leading minus sign when negative:
      reading the text back gives `n`. */
  function IntToString(n: int): (r: string)
    ensures |r| > 0
    ensures (r[0] == '-') <==> n < 0
    ensures r[0] == '0' ==> |r| == 1
    ensures r[0] == '-' ==> |r| > 1 && r[1] != '0'
    ensures IsSignedDecimal(r)
    ensures SignedValue(r) == n
  {
    if n < 0 then
      var digits := NatToString(-n);
      var r := "-" + digits;
      assert r[1..] == digits;
      r
    else NatToString(n)
  }

  /** A canonical numeral is the one `NatToString` writes for its value:
      the decimal text of a number is unique. */
  lemma {:induction false} DecimalUnique(s: string)
    requires IsDecimal(s)
    ensures DecimalValue(s) >= 0 && s == NatToString(DecimalValue(s))
    decreases |s|
  {
    if |s| == 1 {
      SingleDigit(s);
    } else {
      var front, last := s[..|s| - 1], s[|s| - 1];
      assert s == front + [last];
      DropLastDigit(s);
      DecimalUnique(front);
      AppendDigit(front, last);
    }
  }

  /** A one-digit numeral is the one `NatToString` writes for its digit. */
  lemma SingleDigit(s: string)
    requires |s| == 1 && '0' <= s[0] <= '9'
    ensures DecimalValue(s) >= 0 && s == NatToString(DecimalValue(s))
  {
    assert s[..0] == [];
  }

  /** Without its last digit a longer canonical numeral is still canonical
      and does not start with zero. */
  lemma DropLastDigit(s: string)
    requires IsDecimal(s) && |s| > 1
    ensures IsDecimal(s[..|s| - 1]) && s[0] != '0'
  {
    assert s[..|s| - 1][0] == s[0];
  }

  /** Appending a digit to the numeral `NatToString` writes for a positive
      number gives the numeral it writes for ten times it plus the digit. */
  lemma AppendDigit(front: string, last: char)
    requires IsDecimal(front) && front[0] != '0'
    requires DecimalValue(front) >= 0 && front == NatToString(DecimalValue(front))
    requires '0' <= last <= '9'
    ensures DecimalValue(front + [last]) >= 0 && front + [last] == NatToString(DecimalValue(front + [last]))
  {
    var s := front + [last];
    assert s[..|s| - 1] == front;
    var f := DecimalValue(front);
    var d := last as int - '0' as int;
    var n := DecimalValue(s);
    assert n == f * 10 + d;
    assert f > 0;
    assert n / 10 == f && n % 10 == d;
  }

  /** A canonical signed numeral is the one `IntToString` writes for its value. */
  lemma SignedDecimalUnique(s: string)
    requires IsSignedDecimal(s)
    ensures s == IntToString(SignedValue(s))
  {
    if s[0] == '-' {
      DecimalUnique(s[1..]);
      assert s == "-" + s[1..];
    } else {
      DecimalUnique(s);
    }
  }

  /** A JSON string literal: the text in double quotes, with quote and backslash escaped. */
  function Quote(s: string): (r: string)
    ensures |r| >= |s| + 2 && r[0] == '"' && r[|r| - 1] == '"'
  {
    "\"" + Escape(s) + "\""
  }

  function Escape(s: string): (r: string)
    ensures |r| >= |s|
  {
    if s == [] then []
    else (if s[0] == '"' || s[0] == '\\' then ['\\', s[0]] else [s[0]]) + Escape(s[1..])
  }
}

=== FILE: user_service.dfy ===
/** The in-memory user store: a list of records with soft delete, ids
    generated as the largest id plus one, and duplicate-email rejection that
    ignores case. The queries are filters over the list; the updates replace
    the list or one of its records. */
module UserStore {
  import opened Wrappers
  import opened Text
  import opened Models
  import opened Http

  // ---------------------------------------------------------------- Int32 ids

  const Int32Min: int := -0x8000_0000
  const Int32Max: int := 0x7fff_ffff

  predicate InInt32(x: int)
  {
    Int32Min <= x <= Int32Max
  }

  /** `x + 1` on an `int`, in C#'s default unchecked arithmetic. */
  function Increment32(x: int): (r: int)
    requires InInt32(x)
    ensures InInt32(r)
    ensures x < Int32Max ==> r == x + 1
    ensures x == Int32Max ==> r == Int32Min
  {
    if x == Int32Max then Int32Min else x + 1
  }

  ghost predicate IdsInInt32(users: seq<User>)
  {
    forall i :: 0 <= i < |users| ==> InInt32(users[i].id)
  }

  ghost predicate UniqueIds(users: seq<User>)
  {
    forall i, j :: 0 <= i < j < |users| ==> users[i].id != users[j].id
  }

  // ---------------------------------------------------------------- queries

  /** `_users.Where(u => u.IsActive)` */
  function ActiveUsers(users: seq<User>): (r: seq<User>)
    ensures |r| <= |users|
    ensures forall u :: u in r ==> u in users && u.isActive
    ensures forall i :: 0 <= i < |users| && users[i].isActive ==> users[i] in r
  {
    if users == [] then []
    else (if users[0].isActive then [users[0]] else []) + ActiveUsers(users[1..])
  }

  /** Filtering commutes with concatenation, so list order is kept. */
  lemma {:induction false} ActiveUsersAppend(a: seq<User>, b: seq<User>)
    ensures ActiveUsers(a + b) == ActiveUsers(a) + ActiveUsers(b)
  {
    if a != [] {
      assert (a + b)[1..] == a[1..] + b;
      ActiveUsersAppend(a[1..], b);
    } else {
      assert a + b == b;
    }
  }

  /** The number of active records. */
  function ActiveCount(users: seq<User>): (n: nat)
    ensures n <= |users|
  {
    |ActiveUsers(users)|
  }

  /** Deactivating one active record lowers the active count by exactly one. */
  lemma {:induction false} DeactivateCount(users: seq<User>, i: nat, v: User)
    requires i < |users| && users[i].isActive && !v.isActive
    ensures ActiveCount(users[i := v]) == ActiveCount(users) - 1
  {
    if i > 0 {
      assert users[i := v][1..] == users[1..][i - 1 := v];
      DeactivateCount(users[1..], i - 1, v);
    } else {
      assert users[i := v][1..] == users[1..];
    }
  }

  /** Replacing a record by one with the same activity keeps the active count. */
  lemma {:induction false} ReplaceKeepsCount(users: seq<User>, i: nat, v: User)
    requires i < |users| && users[i].isActive == v.isActive
    ensures ActiveCount(users[i := v]) == ActiveCount(users)
  {
    if i > 0 {
      assert users[i := v][1..] == users[1..][i - 1 := v];
      ReplaceKeepsCount(users[1..], i - 1, v);
    } else {
      assert users[i := v][1..] == users[1..];
    }
  }

  /** The position `_users.FirstOrDefault(u => u.Id == id && u.IsActive)` finds. */
  function FindActive(users: seq<User>, id: int): (r: Option<nat>)
    ensures r.Some? ==> r.value < |users| && users[r.value].id == id && users[r.value].isActive
    ensures r.Some? ==> forall j :: 0 <= j < r.value ==> !(users[j].id == id && users[j].isActive)
    ensures r.None? <==> forall j :: 0 <= j < |users| ==> !(users[j].id == id && users[j].isActive)
  {
    if users == [] then None
    else if users[0].id == id && users[0].isActive then Some(0)
    else match FindActive(users[1..], id)
      case None => None
      case Some(k) => Some(k + 1)
  }

  /** `_users.FirstOrDefault(u => u.Id == id && u.IsActive)`: the first active
      record with the id, or null. */
  function Lookup(users: seq<User>, id: int): (r: Option<User>)
    ensures r.Some? <==> exists i :: 0 <= i < |users| && users[i].id == id && users[i].isActive
    ensures r.Some? ==> r.value in users && r.value.id == id && r.value.isActive
    ensures r.Some? ==> r.value == users[FindActive(users, id).value]
  {
    match FindActive(users, id)
    case None => None
    case Some(i) => Some(users[i])
  }

  /** `_users.Any(u => u.Email.Equals(email, OrdinalIgnoreCase))`: active or not. */
  predicate EmailRegistered(users: seq<User>, email: string)
    ensures EmailRegistered(users, email) ==> users != []
    ensures forall u :: u in users && u.email == email ==> EmailRegistered(users, email)
  {
    exists i :: 0 <= i < |users| && EqualsIgnoreCase(users[i].email, email)
  }

  /** `_users.Any(u => u.Id != id && u.Email.Equals(email, OrdinalIgnoreCase))` */
  predicate EmailRegisteredToOther(users: seq<User>, id: int, email: string)
    ensures EmailRegisteredToOther(users, id, email) ==> EmailRegistered(users, email)
  {
    exists i :: 0 <= i < |users| && users[i].id != id && EqualsIgnoreCase(users[i].email, email)
  }

  /** The `EmailExists` test: only active records, optionally skipping one id. */
  predicate EmailInUse(users: seq<User>, email: string, excludeUserId: Option<int>)
    ensures EmailInUse(users, email, excludeUserId) ==> EmailRegistered(users, email)
    ensures excludeUserId.Some? && EmailInUse(users, email, excludeUserId) ==>
              EmailRegisteredToOther(users, excludeUserId.value, email)
  {
    exists i :: 0 <= i < |users| && EqualsIgnoreCase(users[i].email, email) && users[i].isActive
                && (excludeUserId.None? || users[i].id != excludeUserId.value)
  }

  /** The converse of `EmailInUse`'s contract fails: the email of a
      soft-deleted record is not "in use", yet it still blocks creation. */
  lemma SoftDeletedEmailStillRegistered(u: User)
    requires !u.isActive
    ensures !EmailInUse([u], u.email, None)
    ensures EmailRegistered([u], u.email)
  {
    assert EqualsIgnoreCase([u][0].email, u.email);
  }

  /** `_users.Max(u => u.Id)` */
  function MaxId(users: seq<User>): (m: int)
    requires users != []
    ensures exists i :: 0 <= i < |users| && users[i].id == m
    ensures forall i :: 0 <= i < |users| ==> users[i].id <= m
  {
    if |users| == 1 then users[0].id
    else
      var rest := MaxId(users[1..]);
      if users[0].id >= rest then users[0].id else rest
  }

  /** `_users.Any() ? _users.Max(u => u.Id) + 1 : 1` */
  function NextId(users: seq<User>): (id: int)
    requires IdsInInt32(users)
    ensures InInt32(id)
  {
    if users == [] then 1 else Increment32(MaxId(users))
  }

  /** Below the Int32 ceiling the generated id exceeds every existing id. */
  lemma NextIdIsFresh(users: seq<User>)
    requires IdsInInt32(users)
    requires users == [] || MaxId(users) < Int32Max
    ensures forall i :: 0 <= i < |users| ==> users[i].id < NextId(users)
    ensures users == [] ==> NextId(users) == 1
    ensures users != [] ==> NextId(users) == MaxId(users) + 1
  {
    if users != [] {
      assert NextId(users) == MaxId(users) + 1;
    }
  }

  // ---------------------------------------------------------------- updates

  /** The exception `CreateUser` and `UpdateUser` throw for a taken email. */
  function DuplicateEmail(email: string): (ex: Exception)
    ensures IsArgumentException(ex.kind) && ex.kind != ArgumentNull
  {
    Exception(Argument, "Email '" + email + "' is already registered", "at UserService")
  }

  /** The record `CreateUser` stores: the input with a generated id, the
      creation time and the active flag set. */
  function Registered(users: seq<User>, user: User, now: Instant): (u: User)
    requires IdsInInt32(users)
    ensures u.isActive && u.createdDate == now && InInt32(u.id)
    ensures u.name == user.name && u.email == user.email && u.department == user.department
    ensures u.updatedDate == user.updatedDate
    ensures u.id == NextId(users)
  {
    user.(id := NextId(users), createdDate := now, isActive := true)
  }

  /** The record `UpdateUser` leaves: name, email and department from the
      update, a new update time; id, activity and creation time kept. */
  function Edited(u: User, update: User, now: Instant): (r: User)
    ensures r.id == u.id && r.isActive == u.isActive && r.createdDate == u.createdDate
    ensures r.name == update.name && r.email == update.email && r.department == update.department
    ensures r.updatedDate == Some(now)
  {
    u.(name := update.name, email := update.email, department := update.department, updatedDate := Some(now))
  }

  /** At the ceiling the unchecked increment wraps to `Int32Min`, and the
      creation after that one is given the same id again: uniqueness of ids
      rests on staying below `Int32Max`. */
  lemma NextIdWrapsAtCeiling(users: seq<User>, first: User, second: User, now: Instant, later: Instant)
    requires IdsInInt32(users) && users != []
    requires MaxId(users) == Int32Max
    ensures Registered(users, first, now).id == Int32Min
    ensures IdsInInt32(users + [Registered(users, first, now)])
    ensures Registered(users + [Registered(users, first, now)], second, later).id == Int32Min
  {
    var us := users + [Registered(users, first, now)];
    var i :| 0 <= i < |users| && users[i].id == Int32Max;
    assert us[i].id == Int32Max;
    assert MaxId(us) == Int32Max;
  }

  /** A successful creation below the ceiling keeps ids unique and adds one
      active record. */
  lemma {:induction false} CreateKeepsIdsUnique(users: seq<User>, user: User, now: Instant)
    requires IdsInInt32(users) && UniqueIds(users)
    requires users == [] || MaxId(users) < Int32Max
    ensures UniqueIds(users + [Registered(users, user, now)])
    ensures ActiveUsers(users + [Registered(users, user, now)]) == ActiveUsers(users) + [Registered(users, user, now)]
  {
    var u := Registered(users, user, now);
    var us := users + [u];
    NextIdIsFresh(users);
    forall i, j | 0 <= i < j < |us| ensures us[i].id != us[j].id {
      if j == |users| {
        assert us[i] == users[i];
      } else {
        assert us[i] == users[i] && us[j] == users[j];
      }
    }
    ActiveUsersAppend(users, [u]);
    assert ActiveUsers([u]) == [u] by {
      assert [u][1..] == [];
    }
  }

  /** After a soft delete, a lookup of the same id finds nothing when ids are
      unique: a second delete reports failure. */
  lemma DeleteIsFinal(users: seq<User>, id: int, now: Instant)
    requires UniqueIds(users)
    requires FindActive(users, id).Some?
    ensures var i := FindActive(users, id).value;
            FindActive(users[i := users[i].(isActive := false, updatedDate := Some(now))], id).None?
  {
    var i := FindActive(users, id).value;
    var after := users[i := users[i].(isActive := false, updatedDate := Some(now))];
    forall j | 0 <= j < |after| ensures !(after[j].id == id && after[j].isActive) {
      if j != i {
        assert users[j].id != users[i].id by {
          if j < i {} else {}
        }
      }
    }
  }

  // ---------------------------------------------------------------- service

  /** The records a new service starts with: ids 1 to 3, all active, never
      updated, created 30, 15 and 7 days before `now`. */
  function SeedUsers(now: Instant): (r: seq<User>)
    ensures |r| == 3 && IdsInInt32(r) && UniqueIds(r)
    ensures forall i :: 0 <= i < 3 ==> r[i].id == i + 1 && r[i].isActive && r[i].updatedDate.None?
    ensures [r[0].name, r[1].name, r[2].name] == ["John Doe", "Jane Smith", "Bob Johnson"]
    ensures [r[0].email, r[1].email, r[2].email] == ["john@example.com", "jane@example.com", "bob@example.com"]
    ensures [r[0].department, r[1].department, r[2].department] == ["HR", "IT", "Finance"]
    ensures r[0].createdDate == AddDays(now, -30) && r[1].createdDate == AddDays(now, -15)
            && r[2].createdDate == AddDays(now, -7)
  {
    [
      User(1, "John Doe", "john@example.com", "HR", AddDays(now, -30), None, true),
      User(2, "Jane Smith", "jane@example.com", "IT", AddDays(now, -15), None, true),
      User(3, "Bob Johnson", "bob@example.com", "Finance", AddDays(now, -7), None, true)
    ]
  }


  /** `UserService`: owns the list of records. */
  class UserService {
    var users: seq<User>

    ghost predicate Valid()
      reads this
    {
      IdsInInt32(users)
    }

    /** Starts from the three seed records. */
    constructor (now: Instant)
      ensures Valid() && UniqueIds(users) && |users| == 3
      ensures forall i :: 0 <= i < 3 ==> users[i].id == i + 1 && users[i].isActive
      ensures users == SeedUsers(now)
      ensures users[0].email == "john@example.com" && users[1].email == "jane@example.com"
              && users[2].email == "bob@example.com"
    {
      users := SeedUsers(now);
    }

    /** `GetAllUsers`: the active records, in list order. */
    function GetAllUsers(): (r: seq<User>)
      reads this
      ensures forall u :: u in r <==> u in users && u.isActive
      ensures |r| <= |users|
    {
      ActiveUsers(users)
    }

    /** `GetUserById`: the first active record with the id; soft-deleted
        records are never returned. */
    function GetUserById(id: int): (r: Option<User>)
      reads this
      ensures r.Some? <==> exists i :: 0 <= i < |users| && users[i].id == id && users[i].isActive
      ensures r.Some? ==> r.value.id == id && r.value.isActive && r.value in users
    {
      Lookup(users, id)
    }

    method CreateUser(user: User, now: Instant) returns (r: Result<User, Exception>)
      requires Valid()
      modifies this
      ensures Valid()
      ensures EmailRegistered(old(users), user.email) ==>
                r == Failure(DuplicateEmail(user.email)) && users == old(users)
      ensures !EmailRegistered(old(users), user.email) ==>
                r == Success(Registered(old(users), user, now)) && users == old(users) + [r.value]
    {
      if EmailRegistered(users, user.email) {
        r := Failure(DuplicateEmail(user.email));
        return;
      }
      var created := Registered(users, user, now);
      users := users + [created];
      r := Success(created);
    }

    method UpdateUser(id: int, update: User, now: Instant) returns (r: Result<Option<User>, Exception>)
      requires Valid()
      modifies this
      ensures Valid() && |users| == |old(users)|
      ensures FindActive(old(users), id).None? ==> r == Success(None) && users == old(users)
      ensures FindActive(old(users), id).Some? && EmailRegisteredToOther(old(users), id, update.email) ==>
                r == Failure(DuplicateEmail(update.email)) && users == old(users)
      ensures FindActive(old(users), id).Some? && !EmailRegisteredToOther(old(users), id, update.email) ==>
                var i := FindActive(old(users), id).value;
                users == old(users)[i := Edited(old(users)[i], update, now)] && r == Success(Some(users[i]))
    {
      var found := FindActive(users, id);
      if found.None? {
        r := Success(None);
        return;
      }
      if EmailRegisteredToOther(users, id, update.email) {
        r := Failure(DuplicateEmail(update.email));
        return;
      }
      var i := found.value;
      var u := users[i];
      u := u.(name := update.name, email := update.email, department := update.department);
      u := u.(updatedDate := Some(now));
      users := users[i := u];
      r := Success(Some(u));
    }

    method DeleteUser(id: int, now: Instant) returns (deleted: bool)
      requires Valid()
      modifies this
      ensures Valid() && |users| == |old(users)|
      ensures deleted == FindActive(old(users), id).Some?
      ensures !deleted ==> users == old(users)
      ensures deleted ==>
                var i := FindActive(old(users), id).value;
                users == old(users)[i := old(users)[i].(isActive := false, updatedDate := Some(now))]
    {
      var found := FindActive(users, id);
      if found.None? {
        deleted := false;
        return;
      }
      var i := found.value;
      users := users[i := users[i].(isActive := false)];
      users := users[i := users[i].(updatedDate := Some(now))];
      deleted := true;
    }

    /** `EmailExists(email, excludeUserId)` */
    function EmailExists(email: string, excludeUserId: Option<int>): (b: bool)
      reads this
      ensures b ==> EmailRegistered(users, email)
      ensures b == EmailInUse(users, email, excludeUserId)
    {
      EmailInUse(users, email, excludeUserId)
    }
  }
}

=== FILE: users_controller.dfy ===
/** The users controller: five actions, each a mapping from what the service
    returned or threw to a status code and a response envelope, plus the
    endpoint that runs the routed action and writes its result. No action lets
    an exception out. */
module UsersController {
  import opened Wrappers
  import opened Text
  import opened Json
  import opened Models
  import opened Http
  import opened UserStore

  // ---------------------------------------------------------------- envelopes

  /** The anonymous objects the actions pass to `Ok`, `NotFound`, `Conflict`, ... */
  datatype Body =
    | Listed(count: nat, users: seq<User>)         // { success = true, count, data }
    | Found(data: User)                            // { success = true, data }
    | Saved(message: string, data: User)           // { success = true, message, data }
    | Deleted(message: string)                     // { success = true, message }
    | Missing(error: string)                       // { success = false, error }
    | Invalid(error: string, details: seq<string>) // { success = false, error, details }
    | Failed(error: string, message: string)       // { success = false, error, message }

  /** The `success` field of the envelope. */
  predicate Succeeded(b: Body)
  {
    b.Listed? || b.Found? || b.Saved? || b.Deleted?
  }

  datatype ActionResult = ActionResult(status: int, body: Body)

  /** Status and envelope agree: `success = true` exactly on a 2xx status. */
  ghost predicate Consistent(r: ActionResult)
  {
    Succeeded(r.body) <==> 200 <= r.status < 300
  }

  const NotFoundPrefix := "User with ID "
  const NotFoundSuffix := " not found"
  const DeletedSuffix := " deleted successfully"

  /** The message of a 404 result: the id, signed and in decimal, between a
      fixed prefix and suffix. */
  function NotFoundError(id: int): (m: string)
    ensures |m| > |NotFoundPrefix| + |NotFoundSuffix|
    ensures m[..|NotFoundPrefix|] == NotFoundPrefix
    ensures m[|m| - |NotFoundSuffix|..] == NotFoundSuffix
    ensures m[|NotFoundPrefix|] == '-' <==> id < 0
    ensures m[|NotFoundPrefix|] == '0' ==> |m| == |NotFoundPrefix| + 1 + |NotFoundSuffix|
    ensures m[|NotFoundPrefix|] == '-' ==> |m| > |NotFoundPrefix| + 1 + |NotFoundSuffix| && m[|NotFoundPrefix| + 1] != '0'
    ensures IsSignedDecimal(m[|NotFoundPrefix|..|m| - |NotFoundSuffix|])
    ensures SignedValue(m[|NotFoundPrefix|..|m| - |NotFoundSuffix|]) == id
  {
    var digits := IntToString(id);
    var m := NotFoundPrefix + digits + NotFoundSuffix;
    assert m[..|NotFoundPrefix|] == NotFoundPrefix;
    assert m[|NotFoundPrefix|..|m| - |NotFoundSuffix|] == digits;
    assert m[|m| - |NotFoundSuffix|..] == NotFoundSuffix;
    assert m[|NotFoundPrefix|] == digits[0];
    assert |digits| > 1 ==> m[|NotFoundPrefix| + 1] == digits[1];
    m
  }

  /** The message names the id: two ids share a not-found message only when
      they are equal. */
  lemma NotFoundErrorNamesId(a: int, b: int)
    requires NotFoundError(a) == NotFoundError(b)
    ensures a == b
  {
    var m := NotFoundError(a);
    assert SignedValue(m[|NotFoundPrefix|..|m| - |NotFoundSuffix|]) == b;
  }

  const ValidationFailed := "Validation failed"

  // ---------------------------------------------------------------- actions as mappings

  /** `GetAllUsers`: 200 with the users and their number, 500 if the query threw. */
  function ListResult(outcome: Result<seq<User>, Exception>): (r: ActionResult)
    ensures Consistent(r)
    ensures r.status == 200 <==> outcome.Success?
    ensures outcome.Success? ==> r.body.Listed? && r.body.count == |r.body.users| && r.body.users == outcome.value
    ensures outcome.Failure? ==> r.status == 500 && r.body == Failed("Failed to retrieve users", outcome.error.message)
  {
    match outcome
    case Success(users) => ActionResult(200, Listed(|users|, users))
    case Failure(ex) => ActionResult(500, Failed("Failed to retrieve users", ex.message))
  }

  /** `GetUser(id)`: 404 when the lookup found nothing, 200 with the user otherwise. */
  function GetResult(id: int, outcome: Result<Option<User>, Exception>): (r: ActionResult)
    ensures Consistent(r)
    ensures r.status == 200 <==> outcome.Success? && outcome.value.Some?
    ensures r.status == 404 <==> outcome.Success? && outcome.value.None?
    ensures r.status == 404 ==> r.body == Missing(NotFoundError(id))
    ensures r.status == 200 ==> r.body == Found(outcome.value.value)
    ensures outcome.Failure? ==> r.status == 500 && r.body == Failed("Failed to retrieve user", outcome.error.message)
  {
    match outcome
    case Success(None) => ActionResult(404, Missing(NotFoundError(id)))
    case Success(Some(u)) => ActionResult(200, Found(u))
    case Failure(ex) => ActionResult(500, Failed("Failed to retrieve user", ex.message))
  }

  /** `CreateUser` after validation: 201 with the created user; an
      `ArgumentException` (a taken email) becomes 409; anything else 500. */
  function CreateResult(outcome: Result<User, Exception>): (r: ActionResult)
    ensures Consistent(r)
    ensures r.status == 201 <==> outcome.Success?
    ensures r.status == 409 <==> outcome.Failure? && IsArgumentException(outcome.error.kind)
    ensures r.status == 500 <==> outcome.Failure? && !IsArgumentException(outcome.error.kind)
    ensures outcome.Success? ==> r.body == Saved("User created successfully", outcome.value)
    ensures outcome.Failure? ==> r.body.Failed? && r.body.message == outcome.error.message
    ensures r.status == 409 ==> r.body.error == "Conflict"
    ensures r.status == 500 ==> r.body.error == "Failed to create user"
  {
    match outcome
    case Success(u) => ActionResult(201, Saved("User created successfully", u))
    case Failure(ex) =>
      if IsArgumentException(ex.kind) then ActionResult(409, Failed("Conflict", ex.message))
      else ActionResult(500, Failed("Failed to create user", ex.message))
  }

  /** `UpdateUser` after validation: null becomes 404, a taken email 409,
      any other exception 500, success 200 with the updated user. */
  function UpdateResult(id: int, outcome: Result<Option<User>, Exception>): (r: ActionResult)
    ensures Consistent(r)
    ensures r.status == 200 <==> outcome.Success? && outcome.value.Some?
    ensures r.status == 404 <==> outcome.Success? && outcome.value.None?
    ensures r.status == 409 <==> outcome.Failure? && IsArgumentException(outcome.error.kind)
    ensures r.status == 500 <==> outcome.Failure? && !IsArgumentException(outcome.error.kind)
    ensures r.status == 200 ==> r.body == Saved("User updated successfully", outcome.value.value)
    ensures r.status == 404 ==> r.body == Missing(NotFoundError(id))
    ensures outcome.Failure? ==> r.body.Failed? && r.body.message == outcome.error.message
    ensures r.status == 409 ==> r.body.error == "Conflict"
    ensures r.status == 500 ==> r.body.error == "Failed to update user"
  {
    match outcome
    case Success(None) => ActionResult(404, Missing(NotFoundError(id)))
    case Success(Some(u)) => ActionResult(200, Saved("User updated successfully", u))
    case Failure(ex) =>
      if IsArgumentException(ex.kind) then ActionResult(409, Failed("Conflict", ex.message))
      else ActionResult(500, Failed("Failed to update user", ex.message))
  }

  /** `DeleteUser(id)`: false becomes 404, true 200 with a deleted message. */
  function DeleteResult(id: int, outcome: Result<bool, Exception>): (r: ActionResult)
    ensures Consistent(r)
    ensures r.status == 200 <==> outcome == Success(true)
    ensures r.status == 404 <==> outcome == Success(false)
    ensures r.status == 404 ==> r.body == Missing(NotFoundError(id))
    ensures r.status == 200 ==> r.body == Deleted(NotFoundPrefix + IntToString(id) + DeletedSuffix)
    ensures outcome.Failure? ==> r.status == 500 && r.body == Failed("Failed to delete user", outcome.error.message)
  {
    match outcome
    case Success(false) => ActionResult(404, Missing(NotFoundError(id)))
    case Success(true) => ActionResult(200, Deleted(NotFoundPrefix + IntToString(id) + DeletedSuffix))
    case Failure(ex) => ActionResult(500, Failed("Failed to delete user", ex.message))
  }

  /** An invalid model is answered before the service is called. */
  function InvalidModelResult(modelErrors: seq<string>): (r: ActionResult)
    requires modelErrors != []
    ensures Consistent(r) && r.status == 400
    ensures r.body == Invalid(ValidationFailed, modelErrors)
  {
    ActionResult(400, Invalid(ValidationFailed, modelErrors))
  }

  // ---------------------------------------------------------------- actions over the store

  /** What an action does to the list of records and what it answers: the
      service call (not made for an invalid model) followed by the mapping. */
  function Perform(users: seq<User>, action: Action, now: Instant): (p: (seq<User>, ActionResult))
    requires IdsInInt32(users)
    ensures IdsInInt32(p.0) && |p.0| >= |users|
    ensures Consistent(p.1)
  {
    match action
    case ListUsers => (users, ListResult(Success(ActiveUsers(users))))
    case FetchUser(id) =>
      (users, GetResult(id, Success(Lookup(users, id))))
    case AddUser(user, modelErrors) =>
      if modelErrors != [] then (users, InvalidModelResult(modelErrors))
      else if EmailRegistered(users, user.email) then (users, CreateResult(Failure(DuplicateEmail(user.email))))
      else
        var created := Registered(users, user, now);
        (users + [created], CreateResult(Success(created)))
    case ChangeUser(id, user, modelErrors) =>
      if modelErrors != [] then (users, InvalidModelResult(modelErrors))
      else (match FindActive(users, id)
        case None => (users, UpdateResult(id, Success(None)))
        case Some(i) =>
          if EmailRegisteredToOther(users, id, user.email) then (users, UpdateResult(id, Failure(DuplicateEmail(user.email))))
          else
            var edited := Edited(users[i], user, now);
            (users[i := edited], UpdateResult(id, Success(Some(edited)))))
    case RemoveUser(id) =>
      match FindActive(users, id)
      case None => (users, DeleteResult(id, Success(false)))
      case Some(i) => (users[i := users[i].(isActive := false, updatedDate := Some(now))], DeleteResult(id, Success(true)))
  }

  /** The listing answers 200 and counts exactly the active records. */
  lemma ListCountsActive(users: seq<User>, now: Instant)
    requires IdsInInt32(users)
    ensures var (after, r) := Perform(users, ListUsers, now);
            after == users && r.status == 200 && r.body.Listed?
            && r.body.count == ActiveCount(users) && Succeeded(r.body)
  {
  }

  /** A model with errors is answered 400 and the store is not touched. */
  lemma InvalidModelLeavesStore(users: seq<User>, action: Action, now: Instant)
    requires IdsInInt32(users)
    requires (action.AddUser? || action.ChangeUser?) && action.modelErrors != []
    ensures Perform(users, action, now) == (users, ActionResult(400, Invalid(ValidationFailed, action.modelErrors)))
  {
  }

  /** Creating a user whose email is registered, in any case and even on a
      soft-deleted record, is a conflict (409), not an internal error. */
  lemma DuplicateCreateIsConflict(users: seq<User>, user: User, now: Instant, i: nat)
    requires IdsInInt32(users)
    requires i < |users| && EqualsIgnoreCase(users[i].email, user.email)
    ensures Perform(users, AddUser(user, []), now).0 == users
    ensures Perform(users, AddUser(user, []), now).1.status == 409
    ensures Perform(users, AddUser(user, []), now).1.body
            == Failed("Conflict", "Email '" + user.email + "' is already registered")
  {
  }

  /** On a new service the seed emails are taken in any case: creating
      "JOHN@example.com" is a conflict and stores nothing. */
  lemma SeedEmailsConflict(now: Instant, user: User, later: Instant)
    requires EqualsIgnoreCase("john@example.com", user.email)
             || EqualsIgnoreCase("jane@example.com", user.email)
             || EqualsIgnoreCase("bob@example.com", user.email)
    ensures Perform(SeedUsers(now), AddUser(user, []), later).0 == SeedUsers(now)
    ensures Perform(SeedUsers(now), AddUser(user, []), later).1.status == 409
  {
    var seed := SeedUsers(now);
    var i :| 0 <= i < 3 && EqualsIgnoreCase(seed[i].email, user.email);
    DuplicateCreateIsConflict(seed, user, later, i);
  }

  /** The example: "JOHN@example.com" on a new service answers 409. */
  lemma SeedEmailUpperCaseConflict(now: Instant, user: User, later: Instant)
    requires user.email == "JOHN@example.com"
    ensures Perform(SeedUsers(now), AddUser(user, []), later).1.status == 409
  {
    SeedEmailsConflict(now, user, later);
  }

  /** A valid creation with a fresh email appends the registered record and
      answers with it. */
  lemma CreateOutcome(users: seq<User>, user: User, now: Instant)
    requires IdsInInt32(users) && !EmailRegistered(users, user.email)
    ensures Perform(users, AddUser(user, []), now)
            == (users + [Registered(users, user, now)], CreateResult(Success(Registered(users, user, now))))
  {
  }

  /** A creation with a fresh email answers 201 and appends exactly one
      active record carrying the generated id. */
  lemma CreateAppendsOne(users: seq<User>, user: User, now: Instant)
    requires IdsInInt32(users) && UniqueIds(users)
    requires users == [] || MaxId(users) < Int32Max
    requires !EmailRegistered(users, user.email)
    ensures var (after, r) := Perform(users, AddUser(user, []), now);
            r.status == 201 && |after| == |users| + 1 && after[..|users|] == users
            && r.body.Saved? && r.body.data == after[|users|] && after[|users|].isActive
            && UniqueIds(after) && ActiveCount(after) == ActiveCount(users) + 1
  {
    var created := Registered(users, user, now);
    var after := users + [created];
    CreateOutcome(users, user, now);
    CreateKeepsIdsUnique(users, user, now);
    assert after[..|users|] == users && after[|users|] == created;
  }

  /** Deleting twice: the first delete answers 200, the second 404, when ids
      are unique; the first lowers the active count by one. */
  lemma DeleteTwice(users: seq<User>, id: int, now: Instant, later: Instant)
    requires IdsInInt32(users) && UniqueIds(users)
    requires exists i :: 0 <= i < |users| && users[i].id == id && users[i].isActive
    ensures var (after, first) := Perform(users, RemoveUser(id), now);
            first.status == 200 && |after| == |users|
            && ActiveCount(after) == ActiveCount(users) - 1
            && Perform(after, RemoveUser(id), later).1.status == 404
            && Perform(after, RemoveUser(id), later).0 == after
  {
    var i := FindActive(users, id).value;
    var after := users[i := users[i].(isActive := false, updatedDate := Some(now))];
    DeactivateCount(users, i, users[i].(isActive := false, updatedDate := Some(now)));
    DeleteIsFinal(users, id, now);
    assert IdsInInt32(after);
  }

  /** A successful update keeps the number of records, the number of active
      records and every other record; only the target's name, email,
      department and update time change. */
  lemma UpdateChangesOnlyTarget(users: seq<User>, id: int, user: User, now: Instant)
    requires IdsInInt32(users)
    requires FindActive(users, id).Some? && !EmailRegisteredToOther(users, id, user.email)
    ensures var i := FindActive(users, id).value;
            var (after, r) := Perform(users, ChangeUser(id, user, []), now);
            r.status == 200 && |after| == |users| && ActiveCount(after) == ActiveCount(users)
            && (forall j :: 0 <= j < |users| && j != i ==> after[j] == users[j])
            && after[i].id == id && after[i].isActive && after[i].createdDate == users[i].createdDate
            && after[i].email == user.email && r.body == Saved("User updated successfully", after[i])
  {
    var i := FindActive(users, id).value;
    ReplaceKeepsCount(users, i, Edited(users[i], user, now));
  }

  // ---------------------------------------------------------------- the controller

  /** `UsersController`: holds only the injected service. */
  class UsersController {
    const service: UserService

    constructor (service: UserService)
      ensures this.service == service
    {
      this.service := service;
    }

    method GetAllUsers() returns (r: ActionResult)
      requires service.Valid()
      ensures r == ListResult(Success(ActiveUsers(service.users)))
    {
      var users := service.GetAllUsers();
      r := ListResult(Success(users));
    }

    method GetUser(id: int) returns (r: ActionResult)
      requires service.Valid()
      ensures r == GetResult(id, Success(Lookup(service.users, id)))
    {
      var user := service.GetUserById(id);
      r := GetResult(id, Success(user));
    }

    method CreateUser(user: User, modelErrors: seq<string>, now: Instant) returns (r: ActionResult)
      requires service.Valid()
      modifies service
      ensures service.Valid()
      ensures (service.users, r) == Perform(old(service.users), AddUser(user, modelErrors), now)
    {
      if modelErrors != [] {
        r := InvalidModelResult(modelErrors);
        return;
      }
      var created := service.CreateUser(user, now);
      r := CreateResult(created);
    }

    method UpdateUser(id: int, user: User, modelErrors: seq<string>, now: Instant) returns (r: ActionResult)
      requires service.Valid()
      modifies service
      ensures service.Valid()
      ensures (service.users, r) == Perform(old(service.users), ChangeUser(id, user, modelErrors), now)
    {
      if modelErrors != [] {
        r := InvalidModelResult(modelErrors);
        return;
      }
      var updated := service.UpdateUser(id, user, now);
      r := UpdateResult(id, updated);
    }

    method DeleteUser(id: int, now: Instant) returns (r: ActionResult)
      requires service.Valid()
      modifies service
      ensures service.Valid()
      ensures (service.users, r) == Perform(old(service.users), RemoveUser(id), now)
    {
      ghost var before := service.users;
      var deleted := service.DeleteUser(id, now);
      r := DeleteResult(id, Success(deleted));
      assert Perform(before, RemoveUser(id), now).1 == r;
    }
  }

  // ---------------------------------------------------------------- the endpoint

  const JsonContentType := "application/json; charset=utf-8"

  /** Dates are written as their tick count; date formatting is not modelled. */
  function InstantValue(t: Instant): Value
  {
    Str(IntToString(t.ticks))
  }

  /** A `User` as the serializer sees it: its properties in declaration order. */
  function UserValue(u: User): Value
  {
    Object([("id", Number(u.id)),
            ("name", Str(u.name)),
            ("email", Str(u.email)),
            ("department", Str(u.department)),
            ("createdDate", InstantValue(u.createdDate)),
            ("updatedDate", if u.updatedDate.Some? then InstantValue(u.updatedDate.value) else Null),
            ("isActive", Bool(u.isActive))])
  }

  /** The anonymous object each action returns. */
  function BodyValue(b: Body): Value
  {
    var success := ("success", Bool(Succeeded(b)));
    match b
    case Listed(count, users) =>
      Object([success, ("count", Number(count)), ("data", Array(seq(|users|, i requires 0 <= i < |users| => UserValue(users[i]))))])
    case Found(data) => Object([success, ("data", UserValue(data))])
    case Saved(message, data) => Object([success, ("message", Str(message)), ("data", UserValue(data))])
    case Deleted(message) => Object([success, ("message", Str(message))])
    case Missing(error) => Object([success, ("error", Str(error))])
    case Invalid(error, details) =>
      Object([success, ("error", Str(error)), ("details", Array(seq(|details|, i requires 0 <= i < |details| => Str(details[i]))))])
    case Failed(error, message) => Object([success, ("error", Str(error)), ("message", Str(message))])
  }

  /** The camel-case JSON text of an envelope. */
  function RenderBody(b: Body): (text: string)
    ensures |text| > 0 && text[0] == '{'
  {
    Serialize(BodyValue(b))
  }

  /** What the endpoint does: the routed action's effect on the store and its
      result written as JSON; with no matching route, 404 and nothing written;
      when binding the action's model raised, that exception, with the store
      untouched and nothing written. */
  function EndpointReply(users: seq<User>, route: Route, now: Instant): (p: (seq<User>, Outcome))
    requires IdsInInt32(users)
    ensures IdsInInt32(p.0)
    ensures route.Unmatched? ==> p == (users, Replied(Reply(404, None, None)))
    ensures route.BindingFailed? ==> p == (users, Raised(route.fault))
    ensures route.Matched? ==>
              p.1.Replied? && p.1.reply.body.Some? && p.1.reply.contentType == Some(JsonContentType)
  {
    match route
    case Unmatched => (users, Replied(Reply(404, None, None)))
    case BindingFailed(fault) => (users, Raised(fault))
    case Matched(action) =>
      var (after, r) := Perform(users, action, now);
      (after, Replied(Reply(r.status, Some(JsonContentType), Some(RenderBody(r.body)))))
  }

  /** The call of the selected action on the controller. */
  method Run(controller: UsersController, action: Action, now: Instant) returns (r: ActionResult)
    requires controller.service.Valid()
    modifies controller.service
    ensures controller.service.Valid()
    ensures (controller.service.users, r) == Perform(old(controller.service.users), action, now)
  {
    match action {
      case ListUsers => r := controller.GetAllUsers();
      case FetchUser(id) => r := controller.GetUser(id);
      case AddUser(user, modelErrors) => r := controller.CreateUser(user, modelErrors, now);
      case ChangeUser(id, user, modelErrors) => r := controller.UpdateUser(id, user, modelErrors, now);
      case RemoveUser(id) => r := controller.DeleteUser(id, now);
    }
  }

  /** The body read of `[FromBody]` model binding: the whole body, read from
      the position the earlier stages left the stream at, which must be its
      start. The stream ends at its end. */
  method ReadBoundBody(body: Stream) returns (text: string)
    requires body.Valid() && body.canRead && !body.failing
    requires body.position == 0
    modifies body
    ensures body.Valid() && body.data == old(body.data)
    ensures text == body.data && body.position == |body.data|
  {
    var read := body.ReadToEnd();
    text := read.value;
  }

  /** Routing, model binding, the action call, and execution of the returned
      result. The request body reaches it rewound to its start. */
  method Dispatch(ctx: HttpContext, controller: UsersController, now: Instant) returns (thrown: Option<Exception>)
    requires ctx.Valid() && controller.service.Valid()
    requires ctx.requestBody.position == 0
    requires BindableFrom(ctx.request.route, ctx.requestBody.canRead, ctx.requestBody.failing)
    modifies ctx, ctx.requestBody, ctx.responseBody, controller.service
    ensures ctx.Valid() && controller.service.Valid()
    ensures ctx.requestBody.data == old(ctx.requestBody.data)
    ensures ctx.requestBody.position == if ReadsBody(ctx.request.route) then |ctx.requestBody.data| else 0
    ensures controller.service.users == EndpointReply(old(controller.service.users), ctx.request.route, now).0
    ensures Produced(ctx, EndpointReply(old(controller.service.users), ctx.request.route, now).1, thrown)
  {
    var action: Action;
    match ctx.request.route {
      case Unmatched =>
        ctx.statusCode := 404;
        return None;
      case BindingFailed(fault) =>
        return Some(fault);
      case Matched(a) =>
        action := a;
    }
    if ReadsBody(ctx.request.route) {
      var json := ReadBoundBody(ctx.requestBody);
    }
    var r := Run(controller, action, now);
    ctx.statusCode := r.status;
    ctx.contentType := Some(JsonContentType);
    thrown := ctx.responseBody.Write(RenderBody(r.body));
  }
}

=== FILE: wrappers.dfy ===
/** Option and Result, the two failure-carrying shapes the model needs:
    Option stands for a nullable reference, Result for "returned or threw". */
module Wrappers {

  datatype Option<+T> = None | Some(value: T)

  datatype Result<+R, +E> = Success(value: R) | Failure(error: E)
}
